=== FILE: README.md ===
# Tumblr conversation exporter — a Dafny model

`tumblr_secure_tfa_prompt.php` is a command-line script that does four things:

- logs in to Tumblr with an e-mail address, a password and an optional second-factor code;
- finds the direct-message conversations of one blog;
- lets the operator pick one of them;
- downloads its messages and writes them as a transcript, either to the screen, to one file, or to one file per day.

This project models the decision logic of that script as pure Dafny functions over immutable data, and proves properties about it. Every network exchange is replaced by a *scripted reply*: the model takes the sequence of decoded replies the server would send, and the sequence of lines the operator would type. A missing reply stands for an empty or undecodable body. A missing line stands for end of input, which reads as "".

| module | file | models |
|---|---|---|
| `Wrappers` | `wrappers.dfy` | `Option` and `Result` |
| `Text` | `text.dfy` | PHP string helpers: `explode`/`join` with no glue, `stripos`, decimal printing and parsing |
| `Login` | `login.dfy` | login-page token extraction, the e-mail step, the password / second-factor loop with its three-attempt limit |
| `BlogName` | `blog_name.dfy` | normalising the blog name to `<name>.tumblr.com` |
| `Conversations` | `conversations.dfy` | paging through the conversation list, the participant-name table, the conversation menu and the choice |
| `Messages` | `messages.dfy` | paging through one conversation's messages: retry on undecodable pages, the date cut-off, rendering each message kind, keying lines by timestamp |
| `Transcript` | `transcript.dfy` | sorting by timestamp, splitting the output file name, grouping by day, and the three output forms |

Some PHP behaviour is written out explicitly:

- `empty()` is true for "" and for "0";
- `rtrim` treats its second argument as a set of characters;
- an associative array keeps insertion order, and assigning to an existing key overwrites it in place;
- `ksort` orders by key;
- `(int)($ts / 1000)` truncates toward zero;
- `isset($menu[$choice])` with a typed string accepts only canonical decimal keys.

Where the script reads variables that it never assigns (`$partner`, `$date`, `$file`, `$split`), the model takes them as parameters. The date is a `YYYYMMDD` number, or none. The file name is "", meaning "not set", or a name.

In split mode the script joins the pieces of the file name before its last dot with no glue, so every other dot disappears: `a.b.txt` gives `ab-<day>.txt`. The model keeps this (`Transcript.SplitNameInnerDots`).

The conversation scan is modelled in two layers. `Conversations.ScanPages` follows the page loop and the nested participant loops as written, state included. `Conversations.Follow` is the course of the same loop alone: the URLs requested, the visits processed and whether a match stopped it. `ScanPages` is proved to take exactly that course, and its state is proved to be the plain fold of one step per processed visit.

A message whose sender is not in the participant table renders with an empty name: the script looks the sender's id up in `$uuid`, gets null, and prints that as "" (`Messages.UnknownSenderRendersEmpty`).

## Model

| member | source | states |
|---|---|---|
| `Login.ExtractToken` | tumblr_secure_tfa_prompt.php:117-123 | the token is found exactly when some position of the page holds `"API_TOKEN":"`, then a run of characters other than quote and newline, then a quote; the token is that run at the leftmost such position |
| `Login.ExtractExample` | tumblr_secure_tfa_prompt.php:117-123 | on a concrete page the lazy match stops at the first closing quote; an empty page has no token |
| `Login.TfaField` | tumblr_secure_tfa_prompt.php:141-144 | the second-factor field is sent exactly when the held code is not PHP-empty ("" or "0"), and then carries that code |
| `Login.AsksForCodeIgnoresCase` | tumblr_secure_tfa_prompt.php:155-156 | a second factor is demanded exactly when the reply has an error and its description, or "" when it has none, contains `tfa_token` in any letter case |
| `Login.PasswordLoop` | tumblr_secure_tfa_prompt.php:134-166 | at most three submissions in total; each carries the username, the password and the code held at that point; every submission but the last was a second-factor demand with no code held; the loop ends with "attempts exceeded" exactly when all budgeted submissions retried; otherwise it ends with the verdict of the last reply; one prompt per retry |
| `Login.OneSubmission` | tumblr_secure_tfa_prompt.php:141-165 | one submission: invalid JSON fails as malformed; a reply without error logs in with the page token; an error with no retry fails with the description, or the error code when there is no description; a retry prompts and submits again |
| `Login.Authenticate` | tumblr_secure_tfa_prompt.php:113-166 | one to five requests; the login page is always fetched first; login fails with "token not found" exactly when the page has no token, and then after that one request; otherwise the second request announces the e-mail with the token as bearer, and every later request is a password grant under that token; a success carries the token |
| `Login.TokenEndpointBudget` | tumblr_secure_tfa_prompt.php:134-139 | the token endpoint is called at most three times; "attempts exceeded" comes only after exactly three calls and five requests in all |
| `Login.PlainLoginTakesThreeCalls` | tumblr_secure_tfa_prompt.php:113-165 | with a token on the page and a first reply without error, login succeeds after exactly the page, the e-mail step and one grant, with no prompt |
| `Login.SecondFactorRetry` | tumblr_secure_tfa_prompt.php:155-159 | a second-factor demand while no code is held prompts, and the next grant carries the typed line |
| `Login.ExhaustionNeedsEmptyCodes` | tumblr_secure_tfa_prompt.php:134-159 | "attempts exceeded" happens only if the initial code and both typed codes were PHP-empty and all three replies demanded a second factor |
| `Login.SuccessIff` | tumblr_secure_tfa_prompt.php:113-166 | login succeeds exactly when the page has a token and one of the three replies has no error while every earlier submission retried |
| `BlogName.MaskIsSuffixLetters` | tumblr_secure_tfa_prompt.php:73 | the characters `rtrim` strips are exactly the letters of `.tumblr.com` |
| `BlogName.RTrim` | tumblr_secure_tfa_prompt.php:73 | the result is a prefix of the input, does not end in a mask character, and everything removed is mask characters |
| `BlogName.NormalizeAsWritten` | tumblr_secure_tfa_prompt.php:73 | the as-written normalisation ends in `.tumblr.com`; what stands before it is a prefix of the name, everything dropped from the name is a suffix letter, and it does not end in one |
| `BlogName.AsWrittenEatsNameLetters` | tumblr_secure_tfa_prompt.php:73 | as written, `tumblr` and `cool` both become the bare suffix, and `foo.tumblr.com` becomes `f.tumblr.com` |
| `BlogName.Normalize` | tumblr_secure_tfa_prompt.php:73 | corrected: the result ends in `.tumblr.com`; a name already ending in it is kept as is; any other name gets it appended |
| `BlogName.NormalizeIdempotent` | tumblr_secure_tfa_prompt.php:73 | normalising twice is normalising once |
| `BlogName.NormalizeKeepsName` | tumblr_secure_tfa_prompt.php:73 | stripping the suffix from a normalised bare name gives the name back |
| `BlogName.AgreeOutsideMask` | tumblr_secure_tfa_prompt.php:73 | the as-written and the corrected normalisation agree on non-empty names whose last character is not a suffix letter, with or without the suffix already attached |
| `Conversations.ModeOf` | tumblr_secure_tfa_prompt.php:196-209 | with a partner and no id the scan looks for the partner; with an id and no partner it looks for that conversation; with neither it lists every conversation; with both it only records the blog's own ids |
| `Conversations.AddName` | tumblr_secure_tfa_prompt.php:208 | the name goes last under its conversation, whose earlier names are kept; a new conversation is added at the end of the order, a known one keeps its place; other entries are unchanged |
| `Conversations.Step` | tumblr_secure_tfa_prompt.php:192-209 | one participant visit: the blog's own participant and a stopping visit each write the participant's name under its id, and any other visit leaves the id-to-name table unchanged; only a partner match changes the chosen conversation; only listing mode adds the name to the listing |
| `Conversations.CutAt` | tumblr_secure_tfa_prompt.php:191-205 | the participant loops over one page process visits up to and including the first stopping one, or all of them when none stops; no visit before the last processed stops |
| `Conversations.ScanVisits` | tumblr_secure_tfa_prompt.php:191-211 | the participant loops leave off where `CutAt` says, and the state they reach is the fold of `Step` over the visits processed |
| `Conversations.Follow` | tumblr_secure_tfa_prompt.php:184-213 | the page loop's course makes at least one request, the first to the given URL, and at most one per scripted reply plus one |
| `Conversations.ScanPages` | tumblr_secure_tfa_prompt.php:184-213 | the page loop, with its state, requests the URLs, processes the visits and stops exactly as its course `Follow` says |
| `Conversations.FollowLinks` | tumblr_secure_tfa_prompt.php:184-212 | every page but the last one fetched had a present, non-empty next link |
| `Conversations.FollowUrls` | tumblr_secure_tfa_prompt.php:190-212 | each request after the first goes to the site root followed by the previous page's next link |
| `Conversations.FollowEnd` | tumblr_secure_tfa_prompt.php:184-190 | a scan no match stopped ends at a page without a usable next link |
| `Conversations.FollowSeen` | tumblr_secure_tfa_prompt.php:184-213 | the visits processed are a prefix of the visits of the fetched pages, and all of them when no match stopped the scan |
| `Conversations.FollowMatchOnLastPage` | tumblr_secure_tfa_prompt.php:196-212 | a scan that a match stopped processed visits beyond all pages before the last one requested, so the match lies on the last page and no request follows it |
| `Conversations.ScanPagesState` | tumblr_secure_tfa_prompt.php:184-213 | the final state is the fold of `Step` over exactly the visits processed |
| `Conversations.FollowPassesOver` | tumblr_secure_tfa_prompt.php:196-205 | no visit before the last one processed is a stopping one, nor the last one when the scan ran to its end |
| `Conversations.FollowStopsAtMatch` | tumblr_secure_tfa_prompt.php:196-205 | a scan that stopped early stopped at its last visit processed, which is a stopping one |
| `Conversations.ScanPagesFacts` | tumblr_secure_tfa_prompt.php:184-213 | for the scan itself: the visits processed are a prefix of the fetched feed, all of it unless a match stopped the scan, only the last visit processed can be a match, which it is exactly when the scan stopped early, and that match lies on the last page requested |
| `Conversations.Scan` | tumblr_secure_tfa_prompt.php:183-213 | the scan starts at the conversations URL of the blog name as corrected by `BlogName.Normalize` (not the as-written line 73 name), and its state is the fold of `Step`, from the given conversation id, over the visits processed |
| `Conversations.UuidKeysOnlyGrow` | tumblr_secure_tfa_prompt.php:193-205 | the id-to-name table only gains entries |
| `Conversations.UuidKeysOnlySelfOrMatch` | tumblr_secure_tfa_prompt.php:193-205 | every id the table gains is the id of a visit of the blog's own participant or of a stopping visit |
| `Conversations.SelfAlwaysRecorded` | tumblr_secure_tfa_prompt.php:193-195 | every visit of the blog's own participant leaves its id in the table, in every mode |
| `Conversations.MatchRecorded` | tumblr_secure_tfa_prompt.php:196-205 | the stopping visit records its participant's name under its id |
| `Conversations.IndexOnlyWhenListing` | tumblr_secure_tfa_prompt.php:207-209 | outside listing mode the listing is left alone |
| `Conversations.ChosenOnlyAtMatch` | tumblr_secure_tfa_prompt.php:196-201 | without a stopping visit the chosen conversation does not change |
| `Conversations.ListingIndex` | tumblr_secure_tfa_prompt.php:207-208 | from an empty listing, listing mode lists each visited conversation once, exactly the visited ones, in order of first visit, each with the names of all its visited participants (the blog's own included) in visit order |
| `Conversations.FeedOfNPages` | tumblr_secure_tfa_prompt.php:184-212 | a feed of n linked pages whose last has no link is requested exactly n times when no match can stop the scan |
| `Conversations.ScanRecordsSelf` | tumblr_secure_tfa_prompt.php:183-213 | after a whole scan every processed visit of the blog's own participant is in the id-to-name table |
| `Conversations.ScanRecordsOnlySelfOrMatch` | tumblr_secure_tfa_prompt.php:183-213 | after a whole scan every id in the table belongs to a processed visit of the blog's own participant or to the stopping visit; in listing mode, and with both an id and a partner, only the blog's own |
| `Conversations.FirstMatchInFeed` | tumblr_secure_tfa_prompt.php:202-206 | a scan by id stopped exactly when the fetched pages hold the id, and then at its first visit |
| `Conversations.ByIdState` | tumblr_secure_tfa_prompt.php:193-206 | a scan by id records the matching participant, keeps the given id as the chosen conversation and builds no listing |
| `Conversations.ScanById` | tumblr_secure_tfa_prompt.php:202-206 | with a conversation id, the scan stops exactly when a fetched page holds that conversation, at its first visit, whose participant is recorded; the chosen id stays the given one and the listing stays empty |
| `Conversations.ScanListing` | tumblr_secure_tfa_prompt.php:207-213 | with neither an id nor a partner, the scan is never stopped, processes every visit of every fetched page, lists them as `ListingIndex` says, and chooses nothing |
| `Conversations.FirstVisitOpensConversation` | tumblr_secure_tfa_prompt.php:191-192 | within a page, the first visit of a conversation id is the first participant of the first conversation with that id that has participants |
| `Conversations.Menu` | tumblr_secure_tfa_prompt.php:218-225 | the menu numbers the listed conversation ids from 1 in listing order, and has no other keys |
| `Conversations.Select` | tumblr_secure_tfa_prompt.php:227-233 | the first typed line that is a menu key picks that entry, after exactly that many prompts; every earlier line was refused; nothing is picked exactly when no line is a key |
| `Conversations.ValidChoiceIff` | tumblr_secure_tfa_prompt.php:231 | a typed line is accepted exactly when it is the decimal spelling of a number from 1 to the number of conversations |
| `Conversations.Resolve` | tumblr_secure_tfa_prompt.php:216-233 | a conversation given or found is used without prompting; otherwise any pick is a listed conversation |
| `Conversations.MenuListsSeenConversations` | tumblr_secure_tfa_prompt.php:216-233 | after a listing scan every menu entry is a visited conversation, the entries are in first-visit order, every visited conversation has an entry, and the conversation picked was visited |
| `Conversations.ThreeConversationMenu` | tumblr_secure_tfa_prompt.php:228-233 | on a three-entry menu, typed lines `4`, `0` and `02` are refused and `2` then picks the second entry, after four prompts |
| `Conversations.PartnerNotFoundNoSelection` | tumblr_secure_tfa_prompt.php:196-233 | with a partner that never matched, no typed line picks anything |
| `Messages.Seconds` | tumblr_secure_tfa_prompt.php:274 | the millisecond-to-second conversion truncates toward zero: the result has the sign of the input and lies within one second of it |
| `Messages.RenderedLine` | tumblr_secure_tfa_prompt.php:278-292 | exactly TEXT, IMAGE and POSTREF messages get a line: the stamp, the sender's name, then the text, the image URLs joined by ` , `, or the post URL (the fixed notice when the URL is empty) |
| `Messages.UnknownSenderRendersEmpty` | tumblr_secure_tfa_prompt.php:278 | a sender missing from the id-to-name table renders with an empty name |
| `Messages.Put` | tumblr_secure_tfa_prompt.php:280 | storing under a timestamp sets that key's line and leaves every other key's line alone; keys stay unique; a new key goes at the end, an existing one is overwritten in place |
| `Messages.PutInPlace` | tumblr_secure_tfa_prompt.php:280 | in a table with unique keys, overwriting a stored key changes only the entry at that key's position to the new line; every other entry and the order stay as they were |
| `Messages.LastLine` | tumblr_secure_tfa_prompt.php:277-289 | reference meaning of the table: nothing exactly when no message with that timestamp is stored, otherwise the line of the last stored one |
| `Messages.LastWriteWins` | tumblr_secure_tfa_prompt.php:271-293 | after storing a run of messages, each timestamp holds the line of the last stored message with that timestamp, or its earlier line when none |
| `Messages.StoreAllKeys` | tumblr_secure_tfa_prompt.php:277-289 | storing never loses a key and never stores one twice |
| `Messages.RecordsFromStoredMessages` | tumblr_secure_tfa_prompt.php:273-289 | a timestamp has a record exactly when some message with it passes the date filter and has a rendered kind; with a date filter, that message is from exactly that day |
| `Messages.Before` | tumblr_secure_tfa_prompt.php:273-275 | the messages handled on a page are the longest prefix with none before the cut-off day |
| `Messages.ProcessPage` | tumblr_secure_tfa_prompt.php:271-294 | a page halts the collection exactly when one of its messages is before the cut-off day; the records are those of storing the messages before the first such one |
| `Messages.Retry` | tumblr_secure_tfa_prompt.php:260-267 | a page is requested at most five times, at least once; retrying stops at the first reply that decodes to an object; giving up means every try failed |
| `Messages.FailedFromAt` | tumblr_secure_tfa_prompt.php:260-267 | every reply in a run of failed tries is one that did not decode to an object |
| `Messages.RequestPage` | tumblr_secure_tfa_prompt.php:257-294 | one page: one to five requests to the given URL, whose reply and count are those of retrying from the current reply position, after which the next page reads on from just past the last try; it halts exactly when its data holds a message before the cut-off; its records are those of storing its handled messages |
| `Messages.Collect` | tumblr_secure_tfa_prompt.php:255-297 | the first request is for the start URL; every page takes one to five requests |
| `Messages.CollectTriedFrom` | tumblr_secure_tfa_prompt.php:255-267 | the first page is retried from the first reply, and each later page from the reply just after the last try of the page before |
| `Messages.TriedFromAt` | tumblr_secure_tfa_prompt.php:255-267 | in such a run, page `k` is retried from the start position plus the tries of all pages before it |
| `Messages.CollectTries` | tumblr_secure_tfa_prompt.php:255-267 | for the whole loop: page `k`'s reply and number of tries are those of retrying from the start position plus the tries of all pages before it |
| `Messages.CollectGivesUp` | tumblr_secure_tfa_prompt.php:260-267 | a loop that stopped for want of an object stopped on a page whose reply is no object after all five tries |
| `Messages.CollectStops` | tumblr_secure_tfa_prompt.php:255-297 | paging ends at the first page that gives a reason to stop (five failed tries, no countable data, a message before the cut-off, no next link), and each further page is requested at the previous page's next link |
| `Messages.CollectRecords` | tumblr_secure_tfa_prompt.php:255-297 | the records are those of storing, in order, every page's messages up to the first before the cut-off |
| `Messages.CollectMessages` | tumblr_secure_tfa_prompt.php:251-297 | collecting a conversation starts at its messages URL and yields records with unique keys, equal to storing the whole handled message stream |
| `Transcript.Insert` | tumblr_secure_tfa_prompt.php:301 | inserting adds exactly the one record: one longer, same multiset plus the record |
| `Transcript.InsertKeys` | tumblr_secure_tfa_prompt.php:301 | inserting a record adds its key and keeps the others |
| `Transcript.InsertAscending` | tumblr_secure_tfa_prompt.php:301 | inserting a record with a new key into an ascending table keeps it ascending |
| `Transcript.Sort` | tumblr_secure_tfa_prompt.php:301 | `ksort` yields a permutation of the records with the same keys, strictly ascending when the keys are unique |
| `Transcript.AscendingUnique` | tumblr_secure_tfa_prompt.php:301 | a strictly ascending table has unique keys |
| `Transcript.LookupMember` | tumblr_secure_tfa_prompt.php:301-303 | in a table with unique keys a timestamp holds a line exactly when that record is in the table |
| `Transcript.KsortKeepsTable` | tumblr_secure_tfa_prompt.php:301 | sorting a table with unique keys makes it ascending and keeps the line under every timestamp |
| `Transcript.Lines` | tumblr_secure_tfa_prompt.php:303 | the values of the table, one per record, in table order |
| `Transcript.SplitNameMeaning` | tumblr_secure_tfa_prompt.php:308 | a name without a dot is all base and no extension; otherwise the extension is the text from the last dot on, and the base is the text before that dot with its dots removed |
| `Transcript.SplitNameInnerDots` | tumblr_secure_tfa_prompt.php:308 | `a.b.txt` splits into base `ab` and extension `.txt` |
| `Transcript.SplitNamePlain` | tumblr_secure_tfa_prompt.php:308 | `out.txt` splits into `out` and `.txt` |
| `Transcript.SplitNameNoDot` | tumblr_secure_tfa_prompt.php:308 | `log` splits into `log` and no extension |
| `Transcript.AddToMeaning` | tumblr_secure_tfa_prompt.php:311 | adding a line to a day keeps every group's day in place; with distinct days it appends the line to that day's group only; a new day opens a new group at the end |
| `Transcript.OfDay` | tumblr_secure_tfa_prompt.php:310-311 | reference meaning of a group: records of the table, all of that day |
| `Transcript.GroupDays` | tumblr_secure_tfa_prompt.php:310-312 | a day has a group exactly when some record is of that day |
| `Transcript.GroupRecords` | tumblr_secure_tfa_prompt.php:310-312 | the groups have distinct days, and each holds exactly its day's records in table order |
| `Transcript.GroupsMeaning` | tumblr_secure_tfa_prompt.php:310-312 | distinct days, a group for every record's day, and each group is exactly that day's records in order and not empty |
| `Transcript.EachRecordInOneGroup` | tumblr_secure_tfa_prompt.php:310-312 | every record sits in the group of its own day and in no other |
| `Transcript.OfDayAscending` | tumblr_secure_tfa_prompt.php:301-312 | one day's records taken from an ascending table are ascending |
| `Transcript.DayFiles` | tumblr_secure_tfa_prompt.php:313-315 | one file per group, named base, dash, day, extension, holding the group's lines joined by newlines plus a final newline |
| `Transcript.Emit` | tumblr_secure_tfa_prompt.php:301-315 | the transcript goes to the screen exactly when no file name is set; otherwise to one file under that name, or in split mode to files named after the base, a day and the extension; the contents are as `Transcript.EmitWhole` and `Transcript.EmitSplit` state |
| `Transcript.EmitWhole` | tumblr_secure_tfa_prompt.php:301-306 | without split mode the whole table goes out in ascending order: to the screen followed by a blank line, or to the named file with a final newline |
| `Transcript.SplitCoversRecords` | tumblr_secure_tfa_prompt.php:310-315 | in split mode every record's day has a file |
| `Transcript.EmitSplit` | tumblr_secure_tfa_prompt.php:307-315 | in split mode there is one file per day group, named base, dash, day, extension, holding exactly that day's lines in ascending time order; no two files share a name |
| `Transcript.DayNamesInjective` | tumblr_secure_tfa_prompt.php:314 | different days give different file names for the same base and extension |
| `Text.Explode` | tumblr_secure_tfa_prompt.php:308 | `explode` gives at least one piece and no piece holds the separator |
| `Text.JoinExplode` | tumblr_secure_tfa_prompt.php:308 | joining the pieces of `explode` with the separator gives the original string |
| `Text.ParsePrinted` | tumblr_secure_tfa_prompt.php:231 | the decimal form of a number reads back as that number |
| `Text.PrintedParsed` | tumblr_secure_tfa_prompt.php:231 | a string that reads as a number is exactly the decimal form of that number |

## Left out

- cURL handles, the SSL option, the cookie file, its `chmod` and the shutdown hook that deletes it: these are I/O. Requests appear only as request values, and replies as scripted decoded values.
- Command-line option parsing, the help text, `stty` echo control and the interactive prompts for e-mail and password (lines 1-71): the model starts from the credentials. Typed lines are given already trimmed.
- JSON decoding: replies are modelled as the decoded shapes the script inspects. Any reply body that is not valid JSON is one `InvalidJson` value (login), or a missing or `NotAnObject` value (message pages).
- Time-zone-aware date formatting: `date("Ymd")` and `date("d/m/Y, H:i:s")` become the context functions `day` and `stamp`, applied to the truncated second count.
- The sleep between message pages (`$rate`): timing only.
- Progress and diagnostic output: the `echo` lines, the first-message date echo, `print_r` of an unknown message, the `[i] id: names` menu lines and the "Selected" line. An unknown message kind is modelled as storing nothing.
- Output buffering and the "save to file" prompt at the end (lines 238-247 and 319-331): a terminal interaction after the transcript has been produced.
- PHP loose comparison of the date filter when `$date` is not numeric: the cut-off is modelled as a number.
- Conversations.Select: when no typed line is a valid menu number, the source keeps prompting forever. The model returns no selection once the scripted lines run out.
- Messages.Seconds: timestamps are integers; a timestamp that JSON decoding turns into a float is not modelled.
- Conversations.ModeOf: `$partner` is never assigned, so as written the script never runs in partner mode. It runs in by-id mode when `-c` gives a conversation id, and in listing mode otherwise. The partner mode is modelled because the code handles it.
- Conversations.Scan: the blog name used for the request URL (line 183) and for the own-participant test (line 193) is the corrected `BlogName.Normalize` of the typed name, not the as-written `BlogName.NormalizeAsWritten` of line 73. For a name ending in one of the letters `.tumblrco`, such as `cool`, the script requests `participant=.tumblr.com` and never recognises its own participant, while the model requests `participant=cool.tumblr.com`. The as-written behaviour of line 73 is recorded under "## Findings".
- Conversations.ScanRecordsSelf: "own participant" is judged against the corrected `BlogName.Normalize` name, for the same reason as `Conversations.Scan`.
- Conversations.ScanRecordsOnlySelfOrMatch: "own participant" is judged against the corrected `BlogName.Normalize` name, for the same reason as `Conversations.Scan`.
- Conversations.Follow: its own contract bounds only how many requests the loop makes. That no request follows the page holding a match is stated by `Conversations.FollowMatchOnLastPage`, and for the scan itself by `Conversations.ScanPagesFacts`.
- Conversations.ModeOf: the source compares the conversation id with `==`, PHP's loose comparison. Two numeric strings compare as numbers, so `-c 0123` would stop at id `123`. Ids are compared as strings here, so `Conversations.Stops` never matches two differently spelled numbers.

## Findings

| source | as written | input that shows it | evidently intended | confidence | as-written member | corrected member |
|---|---|---|---|---|---|---|
| tumblr_secure_tfa_prompt.php:73 | the suffix `.tumblr.com` is passed to `rtrim` as a set of characters, so every trailing letter from `.tumblrco` is stripped before the suffix is appended | blog name `cool` gives `.tumblr.com`; `tumblr` gives `.tumblr.com`; `foo.tumblr.com` gives `f.tumblr.com` | remove the suffix `.tumblr.com` when present, then append it, so `cool` gives `cool.tumblr.com` | high, not executed | `BlogName.AsWrittenEatsNameLetters` | `BlogName.Normalize` |

=== FILE: blog_name.dfy ===
/** Turning the blog name the user typed into the full host name the service expects. */
module BlogName {

  /** The host suffix appended to every blog name. */
  const Suffix: string := ".tumblr.com"

  /** The characters of `Suffix`, which is what `rtrim` reads its second argument as. */
  const Mask: set<char> := {'.', 't', 'u', 'm', 'b', 'l', 'r', 'c', 'o'}

  lemma MaskIsSuffixLetters()
    ensures forall ch :: ch in Mask <==> ch in Suffix
  {
  }

  predicate EndsWith(s: string, suffix: string)
  {
    |suffix| <= |s| && s[|s| - |suffix|..] == suffix
  }

  lemma Appended(a: string, b: string)
    ensures EndsWith(a + b, b)
    ensures (a + b)[..|a|] == a
  {
    assert (a + b)[|a + b| - |b|..] == b;
  }

  /** `rtrim(s, mask)`: drop the longest trailing run of characters that occur in `mask`.
      The mask is a set of characters, not a suffix. */
  function RTrim(s: string, mask: set<char>): (r: string)
    ensures r <= s
    ensures forall k :: |r| <= k < |s| ==> s[k] in mask
    ensures |r| == 0 || r[|r| - 1] !in mask
  {
    if |s| == 0 || s[|s| - 1] !in mask then s else RTrim(s[..|s| - 1], mask)
  }

  /** The script's normalisation: trim with the suffix used as a character mask
      (the characters . t u m b l r c o), then append the suffix. */
  function NormalizeAsWritten(name: string): (blog: string)
    ensures |Suffix| <= |blog| && EndsWith(blog, Suffix)
    ensures var stem := blog[..|blog| - |Suffix|];
      && stem <= name
      && (forall k :: |stem| <= k < |name| ==> name[k] in Mask)
      && (|stem| == 0 || stem[|stem| - 1] !in Mask)
  {
    var stem := RTrim(name, Mask);
    StemOf(stem);
    stem + Suffix
  }

  /** The stem is what precedes the appended suffix. */
  lemma StemOf(stem: string)
    ensures |Suffix| <= |stem + Suffix| && EndsWith(stem + Suffix, Suffix)
    ensures (stem + Suffix)[..|stem + Suffix| - |Suffix|] == stem
  {
    Appended(stem, Suffix);
  }

  /** Names that end in a mask letter lose those letters: "tumblr" and "cool" both become
      the bare suffix, and "foo.tumblr.com" becomes "f.tumblr.com". */
  lemma AsWrittenEatsNameLetters()
    ensures NormalizeAsWritten("tumblr") == Suffix
    ensures NormalizeAsWritten("cool") == Suffix
    ensures NormalizeAsWritten("foo.tumblr.com") == "f" + Suffix
  {
    assert RTrim("tumblr", Mask) == "";
    assert RTrim("cool", Mask) == "";
    TrimTail("f", "oo.tumblr.com");
    assert "f" + "oo.tumblr.com" == "foo.tumblr.com";
  }

  /** The intended normalisation: a name that already carries the suffix is kept, any
      other name gets the suffix appended. */
  function Normalize(name: string): (blog: string)
    ensures EndsWith(blog, Suffix)
    ensures EndsWith(name, Suffix) ==> blog == name
    ensures !EndsWith(name, Suffix) ==> blog == name + Suffix
  {
    if EndsWith(name, Suffix) then name
    else
      assert (name + Suffix)[|name + Suffix| - |Suffix|..] == Suffix;
      name + Suffix
  }

  /** Normalising twice is normalising once. */
  lemma NormalizeIdempotent(name: string)
    ensures Normalize(Normalize(name)) == Normalize(name)
  {
  }

  /** The part before the suffix survives: stripping the suffix from a normalised
      bare name gives the name back. */
  lemma NormalizeKeepsName(name: string)
    requires !EndsWith(name, Suffix)
    ensures var blog := Normalize(name); blog[..|blog| - |Suffix|] == name
  {
    var blog := Normalize(name);
    assert blog == name + Suffix;
    assert blog[..|name|] == name;
  }

  /** The two versions agree on names whose last character is outside the mask, with or
      without the suffix already attached. */
  lemma AgreeOutsideMask(stem: string)
    requires |stem| > 0 && stem[|stem| - 1] !in Mask
    ensures NormalizeAsWritten(stem) == Normalize(stem)
    ensures NormalizeAsWritten(stem + Suffix) == Normalize(stem + Suffix)
  {
    assert stem[|stem| - 1] != Suffix[|Suffix| - 1];
    var full := stem + Suffix;
    assert EndsWith(full, Suffix) by {
      assert full[|full| - |Suffix|..] == Suffix;
    }
    TrimSuffix(stem);
  }

  lemma TrimSuffix(stem: string)
    requires |stem| > 0 && stem[|stem| - 1] !in Mask
    ensures RTrim(stem + Suffix, Mask) == stem
  {
    TrimTail(stem, Suffix);
  }

  /** Trimming `stem + tail` with a mask containing every character of `tail` removes
      exactly `tail` when the last character of `stem` is outside the mask. */
  lemma {:induction false} TrimTail(stem: string, tail: string)
    requires |stem| > 0 && stem[|stem| - 1] !in Mask
    requires forall k :: 0 <= k < |tail| ==> tail[k] in Mask
    ensures RTrim(stem + tail, Mask) == stem
    decreases |tail|
  {
    var s := stem + tail;
    if |tail| == 0 {
      assert s == stem;
    } else {
      assert s[|s| - 1] == tail[|tail| - 1];
      assert s[..|s| - 1] == stem + tail[..|tail| - 1];
      TrimTail(stem, tail[..|tail| - 1]);
    }
  }
}

=== FILE: conversations.dfy ===
/** Walking the conversations feed: recording the user's own participant ids, finding
    the conversation asked for (by id or by partner name) and, when none was asked for,
    indexing every conversation for a numbered menu the user picks from. */
module Conversations {
  import opened Wrappers
  import opened Text
  import BlogName

  /** Every feed link is relative to this origin. */
  const Host: string := "https://www.tumblr.com"

  datatype Participant = Participant(uuid: string, name: string)

  datatype Conversation = Conversation(id: string, participants: seq<Participant>)

  /** A decoded page of the conversations feed; an undecodable reply is `None`. */
  datatype ConversationPage = ConversationPage(next: Option<string>, conversations: seq<Conversation>)

  /** What the scan looks for, given the conversation id and the partner name, each ""
      when unset. The script never assigns its partner variable, which compares equal to
      "", so `ByPartner` is unreachable there. */
  datatype Mode = ByPartner(partner: string) | ById(id: string) | Listing | SelfOnly

  function ModeOf(conversation: string, partner: string): (m: Mode)
    ensures m.Listing? <==> conversation == "" && partner == ""
    ensures m.ById? <==> conversation != "" && partner == ""
    ensures m.ById? ==> m.id == conversation
    ensures m.ByPartner? <==> conversation == "" && partner != ""
    ensures m.ByPartner? ==> m.partner == partner
  {
    if conversation == "" && partner != "" then ByPartner(partner)
    else if conversation != "" && partner == "" then ById(conversation)
    else if conversation == "" && partner == "" then Listing
    else SelfOnly
  }

  /** One participant of one conversation: the unit the nested loops step through. */
  datatype Visit = Visit(conversation: string, participant: Participant)

  function ParticipantsOf(c: Conversation): (vs: seq<Visit>)
    ensures |vs| == |c.participants|
    ensures forall k :: 0 <= k < |vs| ==> vs[k] == Visit(c.id, c.participants[k])
  {
    seq(|c.participants|, k requires 0 <= k < |c.participants| => Visit(c.id, c.participants[k]))
  }

  /** The visits of a page's conversations, conversation by conversation. */
  function Visits(cs: seq<Conversation>): seq<Visit>
  {
    if |cs| == 0 then [] else ParticipantsOf(cs[0]) + Visits(cs[1..])
  }

  /** The visits of one reply; an undecodable reply has no conversations to loop over. */
  function PageVisits(reply: Option<ConversationPage>): seq<Visit>
  {
    if reply.Some? then Visits(reply.value.conversations) else []
  }

  /** The menu index: conversation ids in first-seen order, and the participant names
      appended under each. */
  datatype Index = Index(ids: seq<string>, names: map<string, seq<string>>)

  const NoConversations: Index := Index([], map[])

  /** `$conv[$id][] = $name`: append under an existing key, or add the key at the end. */
  function AddName(idx: Index, id: string, name: string): (r: Index)
    ensures r.names.Keys == idx.names.Keys + {id}
    ensures r.names[id] == (if id in idx.names then idx.names[id] else []) + [name]
    ensures forall other :: other in idx.names && other != id ==> r.names[other] == idx.names[other]
    ensures r.ids == if id in idx.names then idx.ids else idx.ids + [id]
  {
    if id in idx.names then Index(idx.ids, idx.names[id := idx.names[id] + [name]])
    else Index(idx.ids + [id], idx.names[id := [name]])
  }

  /** The scan's accumulators: participant uuid to name, the menu index, and the
      conversation id (still "" when none was given or found). */
  datatype ScanState = ScanState(uuids: map<string, string>, index: Index, chosen: string)

  /** The participant is the user's own blog. */
  predicate IsSelf(blog: string, p: Participant)
  {
    p.name + BlogName.Suffix == blog
  }

  /** The visit ends the whole scan. */
  predicate Stops(mode: Mode, v: Visit)
  {
    match mode
    case ByPartner(partner) => v.participant.name == partner
    case ById(id) => v.conversation == id
    case Listing => false
    case SelfOnly => false
  }

  /** The body of the innermost loop for one visit. */
  function Step(blog: string, mode: Mode, st: ScanState, v: Visit): (r: ScanState)
    ensures st.uuids.Keys <= r.uuids.Keys
    ensures IsSelf(blog, v.participant) ==> v.participant.uuid in r.uuids
    ensures Stops(mode, v) ==> r.uuids == st.uuids[v.participant.uuid := v.participant.name]
    ensures IsSelf(blog, v.participant) && !Stops(mode, v) ==>
      r.uuids == st.uuids[v.participant.uuid := v.participant.name]
    ensures !IsSelf(blog, v.participant) && !Stops(mode, v) ==> r.uuids == st.uuids
    ensures mode.ByPartner? && Stops(mode, v) ==> r.chosen == v.conversation
    ensures !(mode.ByPartner? && Stops(mode, v)) ==> r.chosen == st.chosen
    ensures r.index == if mode.Listing? then AddName(st.index, v.conversation, v.participant.name) else st.index
  {
    var p := v.participant;
    var uuids := if IsSelf(blog, p) then st.uuids[p.uuid := p.name] else st.uuids;
    match mode
    case ByPartner(partner) =>
      if p.name == partner then ScanState(uuids[p.uuid := p.name], st.index, v.conversation)
      else ScanState(uuids, st.index, st.chosen)
    case ById(id) =>
      if v.conversation == id then ScanState(uuids[p.uuid := p.name], st.index, st.chosen)
      else ScanState(uuids, st.index, st.chosen)
    case Listing =>
      ScanState(uuids, AddName(st.index, v.conversation, p.name), st.chosen)
    case SelfOnly =>
      ScanState(uuids, st.index, st.chosen)
  }

  /** Every step applied in order, with no early exit: the reference the scan is
      compared with. */
  function Apply(blog: string, mode: Mode, st: ScanState, vs: seq<Visit>): ScanState
    decreases |vs|
  {
    if |vs| == 0 then st else Apply(blog, mode, Step(blog, mode, st, vs[0]), vs[1..])
  }

  /** Where the participant loops over one page leave off: the number of visits
      processed, and whether the last of them stopped the scan. */
  datatype Cut = Cut(processed: nat, stopped: bool)

  /** The early exit of the participant loops, apart from what each visit does. */
  function CutAt(mode: Mode, vs: seq<Visit>): (c: Cut)
    ensures c.processed <= |vs|
    ensures forall k :: 0 <= k < c.processed - 1 ==> !Stops(mode, vs[k])
    ensures c.stopped ==> c.processed >= 1 && Stops(mode, vs[c.processed - 1])
    ensures !c.stopped ==> c.processed == |vs| && forall k :: 0 <= k < |vs| ==> !Stops(mode, vs[k])
    decreases |vs|
  {
    if |vs| == 0 then Cut(0, false)
    else if Stops(mode, vs[0]) then Cut(1, true)
    else
      var c := CutAt(mode, vs[1..]);
      Cut(c.processed + 1, c.stopped)
  }

  datatype VisitRun = VisitRun(state: ScanState, processed: nat, stopped: bool)

  /** The nested participant loops over one page, leaving all loops at the first
      stopping visit. */
  function ScanVisits(blog: string, mode: Mode, st: ScanState, vs: seq<Visit>): (r: VisitRun)
    ensures Cut(r.processed, r.stopped) == CutAt(mode, vs)
    ensures r.state == Apply(blog, mode, st, vs[..r.processed])
    decreases |vs|
  {
    if |vs| == 0 then VisitRun(st, 0, false)
    else
      var next := Step(blog, mode, st, vs[0]);
      if Stops(mode, vs[0]) then
        assert vs[..1][1..] == [];
        VisitRun(next, 1, true)
      else
        var rest := ScanVisits(blog, mode, next, vs[1..]);
        assert vs[..rest.processed + 1][1..] == vs[1..][..rest.processed];
        VisitRun(rest.state, rest.processed + 1, rest.stopped)
  }

  /** The reply to the `k`-th request of the feed; a missing one is undecodable. */
  function PageAt(pages: seq<Option<ConversationPage>>, k: nat): Option<ConversationPage>
  {
    if k < |pages| then pages[k] else None
  }

  function NextOf(reply: Option<ConversationPage>): Option<string>
  {
    if reply.Some? then reply.value.next else None
  }

  /** `$next != ""`: the loop goes on only for a present, non-empty link. */
  predicate Continues(next: Option<string>)
  {
    next.Some? && next.value != ""
  }

  function Rest<T>(s: seq<T>): seq<T>
  {
    if |s| == 0 then [] else s[1..]
  }

  lemma PageAtRest(pages: seq<Option<ConversationPage>>, k: nat)
    ensures PageAt(Rest(pages), k) == PageAt(pages, k + 1)
  {
  }

  /** The visits of the first `n` pages of the feed. */
  function Feed(pages: seq<Option<ConversationPage>>, n: nat): seq<Visit>
  {
    if n == 0 then [] else PageVisits(PageAt(pages, 0)) + Feed(Rest(pages), n - 1)
  }

  lemma FeedCons(pages: seq<Option<ConversationPage>>, n: nat)
    requires n >= 1
    ensures Feed(pages, n) == PageVisits(PageAt(pages, 0)) + Feed(Rest(pages), n - 1)
  {
  }

  /** The course of a scan apart from what each visit does: the URLs requested, the
      visits processed, and whether a match ended it early. */
  datatype Trace = Trace(urls: seq<string>, seen: seq<Visit>, stopped: bool)

  /** The page loop's control flow: request `url`, run the participant loops up to the
      first stopping visit, and follow the page's `next` link. */
  function Follow(mode: Mode, url: string, pages: seq<Option<ConversationPage>>): (t: Trace)
    ensures 1 <= |t.urls| <= |pages| + 1
    ensures t.urls[0] == url
    decreases |pages|
  {
    var reply := PageAt(pages, 0);
    var vs := PageVisits(reply);
    var c := CutAt(mode, vs);
    if c.stopped || !Continues(NextOf(reply)) then
      Trace([url], vs[..c.processed], c.stopped)
    else
      var rest := Follow(mode, Host + NextOf(reply).value, pages[1..]);
      Trace([url] + rest.urls, vs + rest.seen, rest.stopped)
  }

  /** A scan: the state reached, and its course. */
  datatype ScanRun = ScanRun(state: ScanState, urls: seq<string>, seen: seq<Visit>, stopped: bool)

  /** The page loop: request `url`, step through the page, and follow its `next` link. */
  function ScanPages(blog: string, mode: Mode, st: ScanState, url: string,
                     pages: seq<Option<ConversationPage>>): (r: ScanRun)
    ensures Trace(r.urls, r.seen, r.stopped) == Follow(mode, url, pages)
    decreases |pages|
  {
    var reply := PageAt(pages, 0);
    var vs := PageVisits(reply);
    var vr := ScanVisits(blog, mode, st, vs);
    if vr.stopped || !Continues(NextOf(reply)) then
      ScanRun(vr.state, [url], vs[..vr.processed], vr.stopped)
    else
      var rest := ScanPages(blog, mode, vr.state, Host + NextOf(reply).value, pages[1..]);
      ScanRun(rest.state, [url] + rest.urls, vs + rest.seen, rest.stopped)
  }

  /** Each request after the first follows a present, non-empty `next` link of the page
      before it. */
  lemma {:induction false} FollowLinks(mode: Mode, url: string, pages: seq<Option<ConversationPage>>)
    ensures var t := Follow(mode, url, pages);
      forall j :: 0 <= j < |t.urls| - 1 ==> Continues(NextOf(PageAt(pages, j)))
    decreases |pages|
  {
    var t := Follow(mode, url, pages);
    var reply := PageAt(pages, 0);
    var c := CutAt(mode, PageVisits(reply));
    if !(c.stopped || !Continues(NextOf(reply))) {
      var rest := Follow(mode, Host + NextOf(reply).value, pages[1..]);
      FollowLinks(mode, Host + NextOf(reply).value, pages[1..]);
      assert Rest(pages) == pages[1..];
      forall j | 0 < j < |t.urls| - 1
        ensures Continues(NextOf(PageAt(pages, j)))
      {
        PageAtRest(pages, j - 1);
      }
    }
  }

  /** Each request after the first goes to the site root followed by that link. */
  lemma {:induction false} FollowUrls(mode: Mode, url: string, pages: seq<Option<ConversationPage>>)
    ensures var t := Follow(mode, url, pages);
      forall j :: 0 <= j < |t.urls| - 1 ==>
        NextOf(PageAt(pages, j)).Some? && t.urls[j + 1] == Host + NextOf(PageAt(pages, j)).value
    decreases |pages|
  {
    var t := Follow(mode, url, pages);
    var reply := PageAt(pages, 0);
    var c := CutAt(mode, PageVisits(reply));
    if !(c.stopped || !Continues(NextOf(reply))) {
      var rest := Follow(mode, Host + NextOf(reply).value, pages[1..]);
      FollowUrls(mode, Host + NextOf(reply).value, pages[1..]);
      assert Rest(pages) == pages[1..];
      forall j | 0 <= j < |t.urls| - 1
        ensures NextOf(PageAt(pages, j)).Some? && t.urls[j + 1] == Host + NextOf(PageAt(pages, j)).value
      {
        assert t.urls[j + 1] == rest.urls[j];
        if j > 0 {
          PageAtRest(pages, j - 1);
        }
      }
    }
  }

  /** A scan no match stopped ends at a page without a usable `next` link. */
  lemma {:induction false} FollowEnd(mode: Mode, url: string, pages: seq<Option<ConversationPage>>)
    ensures var t := Follow(mode, url, pages);
      !t.stopped ==> !Continues(NextOf(PageAt(pages, |t.urls| - 1)))
    decreases |pages|
  {
    var reply := PageAt(pages, 0);
    var c := CutAt(mode, PageVisits(reply));
    if !(c.stopped || !Continues(NextOf(reply))) {
      var rest := Follow(mode, Host + NextOf(reply).value, pages[1..]);
      FollowEnd(mode, Host + NextOf(reply).value, pages[1..]);
      assert Rest(pages) == pages[1..];
      PageAtRest(pages, |rest.urls| - 1);
    }
  }

  /** The visits processed are those of the fetched pages, cut short only by a match. */
  lemma {:induction false} FollowSeen(mode: Mode, url: string, pages: seq<Option<ConversationPage>>)
    ensures var t := Follow(mode, url, pages);
      && t.seen <= Feed(pages, |t.urls|)
      && (!t.stopped ==> t.seen == Feed(pages, |t.urls|))
    decreases |pages|
  {
    var t := Follow(mode, url, pages);
    var reply := PageAt(pages, 0);
    var vs := PageVisits(reply);
    var c := CutAt(mode, vs);
    FeedCons(pages, |t.urls|);
    if c.stopped || !Continues(NextOf(reply)) {
      assert Feed(Rest(pages), 0) == [];
      assert vs + [] == vs;
      assert !t.stopped ==> vs[..c.processed] == vs;
    } else {
      var rest := Follow(mode, Host + NextOf(reply).value, pages[1..]);
      FollowSeen(mode, Host + NextOf(reply).value, pages[1..]);
      assert Rest(pages) == pages[1..];
      PrefixAppend(vs, rest.seen, Feed(Rest(pages), |t.urls| - 1));
    }
  }

  /** Of a scan that requested `n` pages and processed `seen`: a match that stopped it
      lay on the `n`-th page, past every visit of the pages before. */
  predicate MatchOnLastPage(pages: seq<Option<ConversationPage>>, n: nat, seen: seq<Visit>,
                            stopped: bool)
  {
    stopped ==> n >= 1 && |Feed(pages, n - 1)| < |seen|
  }

  /** A match ends the scan inside the last page requested: the visits processed reach
      past all the earlier pages, so no request follows the page holding the match. */
  lemma {:induction false} FollowMatchOnLastPage(mode: Mode, url: string,
                                                 pages: seq<Option<ConversationPage>>)
    ensures var t := Follow(mode, url, pages);
      MatchOnLastPage(pages, |t.urls|, t.seen, t.stopped)
    decreases |pages|
  {
    var t := Follow(mode, url, pages);
    var reply := PageAt(pages, 0);
    var vs := PageVisits(reply);
    var c := CutAt(mode, vs);
    if c.stopped || !Continues(NextOf(reply)) {
      assert Feed(pages, 0) == [];
    } else {
      var rest := Follow(mode, Host + NextOf(reply).value, pages[1..]);
      FollowMatchOnLastPage(mode, Host + NextOf(reply).value, pages[1..]);
      assert Rest(pages) == pages[1..];
      FeedCons(pages, |t.urls| - 1);
    }
  }

  lemma PrefixAppend<T>(a: seq<T>, b: seq<T>, c: seq<T>)
    requires b <= c
    ensures a + b <= a + c
    ensures b == c ==> a + b == a + c
  {
    assert (a + c)[..|a + b|] == a + c[..|b|];
  }

  /** No visit before the last processed is a match, nor the last one of a scan that
      ran to its end. */
  predicate NoEarlyMatch(mode: Mode, seen: seq<Visit>, stopped: bool)
  {
    forall k :: 0 <= k < |seen| - (if stopped then 1 else 0) ==> !Stops(mode, seen[k])
  }

  /** A scan stopped early ends on a match. */
  predicate EndsAtMatch(mode: Mode, seen: seq<Visit>, stopped: bool)
  {
    stopped ==> |seen| >= 1 && Stops(mode, seen[|seen| - 1])
  }

  lemma {:induction false} FollowPassesOver(mode: Mode, url: string, pages: seq<Option<ConversationPage>>)
    ensures var t := Follow(mode, url, pages); NoEarlyMatch(mode, t.seen, t.stopped)
    decreases |pages|
  {
    var t := Follow(mode, url, pages);
    var reply := PageAt(pages, 0);
    var vs := PageVisits(reply);
    var c := CutAt(mode, vs);
    if c.stopped || !Continues(NextOf(reply)) {
      forall k | 0 <= k < |t.seen| - (if t.stopped then 1 else 0)
        ensures !Stops(mode, t.seen[k])
      {
        assert t.seen[k] == vs[k];
      }
    } else {
      var rest := Follow(mode, Host + NextOf(reply).value, pages[1..]);
      FollowPassesOver(mode, Host + NextOf(reply).value, pages[1..]);
      assert t == Trace([url] + rest.urls, vs + rest.seen, rest.stopped);
      forall k | 0 <= k < |t.seen| - (if t.stopped then 1 else 0)
        ensures !Stops(mode, t.seen[k])
      {
        if k >= |vs| {
          assert t.seen[k] == rest.seen[k - |vs|];
        } else {
          assert t.seen[k] == vs[k];
        }
      }
    }
  }

  lemma {:induction false} FollowStopsAtMatch(mode: Mode, url: string, pages: seq<Option<ConversationPage>>)
    ensures var t := Follow(mode, url, pages);
      EndsAtMatch(mode, t.seen, t.stopped)
    decreases |pages|
  {
    var t := Follow(mode, url, pages);
    var reply := PageAt(pages, 0);
    var vs := PageVisits(reply);
    var c := CutAt(mode, vs);
    if !(c.stopped || !Continues(NextOf(reply))) {
      var rest := Follow(mode, Host + NextOf(reply).value, pages[1..]);
      FollowStopsAtMatch(mode, Host + NextOf(reply).value, pages[1..]);
      if t.stopped {
        assert t.seen[|t.seen| - 1] == rest.seen[|rest.seen| - 1];
      }
    }
  }

  /** A scan's course: the processed visits are a prefix of
      the fetched feed, all of it unless a match stopped the scan, and that match is the
      last visit processed, the only one, and on the last page requested. */
  lemma ScanPagesFacts(blog: string, mode: Mode, st: ScanState, url: string,
                       pages: seq<Option<ConversationPage>>)
    ensures var r := ScanPages(blog, mode, st, url, pages);
      && r.seen <= Feed(pages, |r.urls|)
      && (!r.stopped ==> r.seen == Feed(pages, |r.urls|))
      && MatchOnLastPage(pages, |r.urls|, r.seen, r.stopped)
      && NoEarlyMatch(mode, r.seen, r.stopped)
      && EndsAtMatch(mode, r.seen, r.stopped)
  {
    var r := ScanPages(blog, mode, st, url, pages);
    var t := Follow(mode, url, pages);
    assert r.urls == t.urls && r.seen == t.seen && r.stopped == t.stopped;
    FollowSeen(mode, url, pages);
    FollowMatchOnLastPage(mode, url, pages);
    FollowPassesOver(mode, url, pages);
    FollowStopsAtMatch(mode, url, pages);
  }

  /** The scan state is the plain fold of the steps over the visits processed. */
  lemma {:induction false} ScanPagesState(blog: string, mode: Mode, st: ScanState, url: string,
                                          pages: seq<Option<ConversationPage>>)
    ensures var r := ScanPages(blog, mode, st, url, pages);
      r.state == Apply(blog, mode, st, r.seen)
    decreases |pages|
  {
    var reply := PageAt(pages, 0);
    var vs := PageVisits(reply);
    var vr := ScanVisits(blog, mode, st, vs);
    if !(vr.stopped || !Continues(NextOf(reply))) {
      var rest := ScanPages(blog, mode, vr.state, Host + NextOf(reply).value, pages[1..]);
      ScanPagesState(blog, mode, vr.state, Host + NextOf(reply).value, pages[1..]);
      assert vs[..vr.processed] == vs;
      ApplyAppend(blog, mode, st, vs, rest.seen);
    }
  }

  lemma {:induction false} ApplyAppend(blog: string, mode: Mode, st: ScanState, a: seq<Visit>, b: seq<Visit>)
    ensures Apply(blog, mode, st, a + b) == Apply(blog, mode, Apply(blog, mode, st, a), b)
    decreases |a|
  {
    if |a| == 0 {
      assert a + b == b;
    } else {
      assert (a + b)[1..] == a[1..] + b;
      ApplyAppend(blog, mode, Step(blog, mode, st, a[0]), a[1..], b);
    }
  }

  /** The first URL of the feed; `now` is the decimal clock reading in seconds. */
  function FirstUrl(blog: string, now: string): string
  {
    Host + "/svc/conversations?participant=" + blog + "&_=" + now + "000"
  }

  function StartState(conversation: string): ScanState
  {
    ScanState(map[], NoConversations, conversation)
  }

  /** The conversation scan for the blog the user named. */
  function Scan(blogName: string, now: string, conversation: string, partner: string,
                pages: seq<Option<ConversationPage>>): (r: ScanRun)
    ensures |r.urls| >= 1 && r.urls[0] == FirstUrl(BlogName.Normalize(blogName), now)
    ensures r.state == Apply(BlogName.Normalize(blogName), ModeOf(conversation, partner),
                             StartState(conversation), r.seen)
  {
    var blog := BlogName.Normalize(blogName);
    var url := FirstUrl(blog, now);
    ScanPagesState(blog, ModeOf(conversation, partner), StartState(conversation), url, pages);
    ScanPages(blog, ModeOf(conversation, partner), StartState(conversation), url, pages)
  }

  // ---------------------------------------------------------------------------
  // Properties of the steps
  // ---------------------------------------------------------------------------

  lemma ApplyOne(blog: string, mode: Mode, st: ScanState, v: Visit)
    ensures Apply(blog, mode, st, [v]) == Step(blog, mode, st, v)
  {
    assert [v][1..] == [];
  }

  lemma ApplySnoc(blog: string, mode: Mode, st: ScanState, vs: seq<Visit>, v: Visit)
    ensures Apply(blog, mode, st, vs + [v]) == Step(blog, mode, Apply(blog, mode, st, vs), v)
  {
    ApplyAppend(blog, mode, st, vs, [v]);
    ApplyOne(blog, mode, Apply(blog, mode, st, vs), v);
  }

  /** Participant ids are never removed from the uuid map. */
  lemma {:induction false} UuidKeysOnlyGrow(blog: string, mode: Mode, st: ScanState, vs: seq<Visit>)
    ensures st.uuids.Keys <= Apply(blog, mode, st, vs).uuids.Keys
    decreases |vs|
  {
    if |vs| > 0 {
      UuidKeysOnlyGrow(blog, mode, Step(blog, mode, st, vs[0]), vs[1..]);
    }
  }

  /** The uuid of a visit that records its participant. */
  predicate Recorded(blog: string, mode: Mode, v: Visit, u: string)
  {
    v.participant.uuid == u && (IsSelf(blog, v.participant) || Stops(mode, v))
  }

  /** Only the blog's own participants and stopping visits enter the uuid map: every
      new key is the uuid of such a visit. */
  lemma {:induction false} UuidKeysOnlySelfOrMatch(blog: string, mode: Mode, st: ScanState, vs: seq<Visit>)
    ensures forall u :: u in Apply(blog, mode, st, vs).uuids ==>
      u in st.uuids || exists k :: 0 <= k < |vs| && Recorded(blog, mode, vs[k], u)
    decreases |vs|
  {
    if |vs| > 0 {
      var next := Step(blog, mode, st, vs[0]);
      UuidKeysOnlySelfOrMatch(blog, mode, next, vs[1..]);
      forall u | u in Apply(blog, mode, st, vs).uuids
        ensures u in st.uuids || exists k :: 0 <= k < |vs| && Recorded(blog, mode, vs[k], u)
      {
        if u in next.uuids && u !in st.uuids {
          assert Recorded(blog, mode, vs[0], u);
        } else if u !in next.uuids {
          var k :| 0 <= k < |vs[1..]| && Recorded(blog, mode, vs[1..][k], u);
          assert vs[k + 1] == vs[1..][k];
        }
      }
    }
  }

  /** Every visit of the user's own blog leaves its uuid in the map, whatever the mode. */
  lemma {:induction false} SelfAlwaysRecorded(blog: string, mode: Mode, st: ScanState, vs: seq<Visit>)
    ensures forall k :: 0 <= k < |vs| && IsSelf(blog, vs[k].participant) ==>
      vs[k].participant.uuid in Apply(blog, mode, st, vs).uuids
    decreases |vs|
  {
    if |vs| > 0 {
      var next := Step(blog, mode, st, vs[0]);
      SelfAlwaysRecorded(blog, mode, next, vs[1..]);
      UuidKeysOnlyGrow(blog, mode, next, vs[1..]);
      forall k | 0 <= k < |vs| && IsSelf(blog, vs[k].participant)
        ensures vs[k].participant.uuid in Apply(blog, mode, st, vs).uuids
      {
        if k > 0 {
          assert vs[k] == vs[1..][k - 1];
        }
      }
    }
  }

  /** The matching participant that ends a scan is recorded under its uuid. */
  lemma MatchRecorded(blog: string, mode: Mode, st: ScanState, vs: seq<Visit>)
    requires |vs| >= 1 && Stops(mode, vs[|vs| - 1])
    ensures var p := vs[|vs| - 1].participant;
      Apply(blog, mode, st, vs).uuids == Apply(blog, mode, st, vs[..|vs| - 1]).uuids[p.uuid := p.name]
  {
    assert vs == vs[..|vs| - 1] + [vs[|vs| - 1]];
    ApplySnoc(blog, mode, st, vs[..|vs| - 1], vs[|vs| - 1]);
  }

  /** Outside listing mode the menu index is left alone. */
  lemma {:induction false} IndexOnlyWhenListing(blog: string, mode: Mode, st: ScanState, vs: seq<Visit>)
    requires !mode.Listing?
    ensures Apply(blog, mode, st, vs).index == st.index
    decreases |vs|
  {
    if |vs| > 0 {
      IndexOnlyWhenListing(blog, mode, Step(blog, mode, st, vs[0]), vs[1..]);
    }
  }

  /** The conversation id changes only at a partner match. */
  lemma {:induction false} ChosenOnlyAtMatch(blog: string, mode: Mode, st: ScanState, vs: seq<Visit>)
    requires forall k :: 0 <= k < |vs| ==> !Stops(mode, vs[k])
    ensures Apply(blog, mode, st, vs).chosen == st.chosen
    decreases |vs|
  {
    if |vs| > 0 {
      assert !Stops(mode, vs[0]);
      ChosenOnlyAtMatch(blog, mode, Step(blog, mode, st, vs[0]), vs[1..]);
    }
  }

  // ---------------------------------------------------------------------------
  // The menu index, stated against the visits alone
  // ---------------------------------------------------------------------------

  predicate Distinct<T(==)>(s: seq<T>)
  {
    forall i, j :: 0 <= i < j < |s| ==> s[i] != s[j]
  }

  /** The names visited under conversation `id`, in order. */
  function NamesIn(vs: seq<Visit>, id: string): seq<string>
  {
    if |vs| == 0 then []
    else
      var last := vs[|vs| - 1];
      NamesIn(vs[..|vs| - 1], id) + (if last.conversation == id then [last.participant.name] else [])
  }

  /** The position of the first visit of conversation `id`, or `|vs|` if there is none. */
  function FirstPos(vs: seq<Visit>, id: string): (r: nat)
    ensures r <= |vs|
    ensures forall q :: 0 <= q < r ==> vs[q].conversation != id
    ensures r < |vs| ==> vs[r].conversation == id
  {
    if |vs| == 0 then 0 else if vs[0].conversation == id then 0 else 1 + FirstPos(vs[1..], id)
  }

  predicate Occurs(vs: seq<Visit>, id: string)
  {
    exists k :: 0 <= k < |vs| && vs[k].conversation == id
  }

  lemma FirstPosSnoc(vs: seq<Visit>, v: Visit, id: string)
    ensures Occurs(vs, id) ==> FirstPos(vs + [v], id) == FirstPos(vs, id) < |vs|
    ensures !Occurs(vs, id) && v.conversation == id ==> FirstPos(vs + [v], id) == |vs|
  {
    var w := vs + [v];
    var a := FirstPos(vs, id);
    var b := FirstPos(w, id);
    if Occurs(vs, id) {
      var k :| 0 <= k < |vs| && vs[k].conversation == id;
      assert a <= k;
      assert w[a] == vs[a];
    } else if v.conversation == id {
      assert w[|vs|] == v;
    }
  }

  lemma OccursSnoc(init: seq<Visit>, v: Visit, id: string)
    ensures Occurs(init + [v], id) <==> Occurs(init, id) || v.conversation == id
  {
    var w := init + [v];
    if Occurs(init, id) {
      var k :| 0 <= k < |init| && init[k].conversation == id;
      assert w[k] == init[k];
    }
    if Occurs(w, id) {
      var k :| 0 <= k < |w| && w[k].conversation == id;
      if k < |init| {
        assert w[k] == init[k];
      }
    }
    assert w[|init|] == v;
  }

  /** Each id appears once in the index order, and exactly the ids with names do. */
  ghost predicate WellFormed(idx: Index)
  {
    && Distinct(idx.ids)
    && (forall id :: id in idx.names <==> id in idx.ids)
  }

  /** The index of the menu: what listing mode builds from an empty index. */
  ghost predicate IndexOf(idx: Index, vs: seq<Visit>)
  {
    && WellFormed(idx)
    && (forall id :: id in idx.ids <==> Occurs(vs, id))
    && (forall id :: id in idx.names ==> idx.names[id] == NamesIn(vs, id))
    && (forall i, j :: 0 <= i < j < |idx.ids| ==> FirstPos(vs, idx.ids[i]) < FirstPos(vs, idx.ids[j]))
  }

  /** The listing index after `vs` is the step applied to the index after all but the last. */
  lemma ListingSnoc(blog: string, st: ScanState, vs: seq<Visit>)
    requires |vs| >= 1
    ensures var init := vs[..|vs| - 1];
      var v := vs[|vs| - 1];
      && vs == init + [v]
      && Apply(blog, Listing, st, vs).index ==
         AddName(Apply(blog, Listing, st, init).index, v.conversation, v.participant.name)
  {
    var init := vs[..|vs| - 1];
    var v := vs[|vs| - 1];
    assert vs == init + [v];
    ApplySnoc(blog, Listing, st, init, v);
  }

  /** Listing mode keeps the index well formed and indexes exactly the conversations visited. */
  lemma {:induction false} ListingIds(blog: string, st: ScanState, vs: seq<Visit>)
    requires st.index == NoConversations
    ensures var idx := Apply(blog, Listing, st, vs).index;
      WellFormed(idx) && forall id :: id in idx.ids <==> Occurs(vs, id)
    decreases |vs|
  {
    if |vs| > 0 {
      var init := vs[..|vs| - 1];
      var v := vs[|vs| - 1];
      ListingSnoc(blog, st, vs);
      ListingIds(blog, st, init);
      var idx := Apply(blog, Listing, st, vs).index;
      forall id
        ensures id in idx.ids <==> Occurs(vs, id)
      {
        OccursSnoc(init, v, id);
      }
    }
  }

  /** Listing mode appends every visited name under its conversation, in visit order. */
  lemma {:induction false} ListingNames(blog: string, st: ScanState, vs: seq<Visit>)
    requires st.index == NoConversations
    ensures var idx := Apply(blog, Listing, st, vs).index;
      forall id :: id in idx.names ==> idx.names[id] == NamesIn(vs, id)
    decreases |vs|
  {
    if |vs| > 0 {
      var init := vs[..|vs| - 1];
      var v := vs[|vs| - 1];
      ListingSnoc(blog, st, vs);
      ListingNames(blog, st, init);
      ListingIds(blog, st, init);
      var old_ := Apply(blog, Listing, st, init).index;
      var idx := Apply(blog, Listing, st, vs).index;
      forall id | id in idx.names
        ensures idx.names[id] == NamesIn(vs, id)
      {
        assert NamesIn(vs, id) == NamesIn(init, id) + (if v.conversation == id then [v.participant.name] else []);
        if id !in old_.names {
          NoNamesWithout(init, id);
        }
      }
    }
  }

  /** Listing mode orders the index by first appearance. */
  lemma {:induction false} ListingOrder(blog: string, st: ScanState, vs: seq<Visit>)
    requires st.index == NoConversations
    ensures var idx := Apply(blog, Listing, st, vs).index;
      forall i, j :: 0 <= i < j < |idx.ids| ==> FirstPos(vs, idx.ids[i]) < FirstPos(vs, idx.ids[j])
    decreases |vs|
  {
    if |vs| > 0 {
      var init := vs[..|vs| - 1];
      var v := vs[|vs| - 1];
      ListingSnoc(blog, st, vs);
      ListingOrder(blog, st, init);
      ListingIds(blog, st, init);
      var old_ := Apply(blog, Listing, st, init).index;
      var idx := Apply(blog, Listing, st, vs).index;
      OrderSnoc(old_, idx, init, v);
    }
  }

  /** One listing step keeps the index in first-appearance order. */
  lemma OrderSnoc(old_: Index, idx: Index, init: seq<Visit>, v: Visit)
    requires forall id :: id in old_.ids <==> Occurs(init, id)
    requires forall id :: id in old_.names <==> id in old_.ids
    requires forall i, j :: 0 <= i < j < |old_.ids| ==> FirstPos(init, old_.ids[i]) < FirstPos(init, old_.ids[j])
    requires idx == AddName(old_, v.conversation, v.participant.name)
    ensures forall i, j :: 0 <= i < j < |idx.ids| ==> FirstPos(init + [v], idx.ids[i]) < FirstPos(init + [v], idx.ids[j])
  {
    forall i, j | 0 <= i < j < |idx.ids|
      ensures FirstPos(init + [v], idx.ids[i]) < FirstPos(init + [v], idx.ids[j])
    {
      var a := old_.ids[i];
      assert idx.ids[i] == a;
      assert Occurs(init, a);
      FirstPosSnoc(init, v, a);
      if j < |old_.ids| {
        var b := old_.ids[j];
        assert idx.ids[j] == b;
        assert Occurs(init, b);
        FirstPosSnoc(init, v, b);
      } else {
        assert idx.ids[j] == v.conversation && v.conversation !in old_.ids;
        FirstPosSnoc(init, v, v.conversation);
      }
    }
  }

  /** Listing mode indexes every visited conversation once, in first-seen order, with
      every participant name appended under it in visit order. */
  lemma ListingIndex(blog: string, st: ScanState, vs: seq<Visit>)
    requires st.index == NoConversations
    ensures IndexOf(Apply(blog, Listing, st, vs).index, vs)
  {
    ListingIds(blog, st, vs);
    ListingNames(blog, st, vs);
    ListingOrder(blog, st, vs);
  }

  lemma {:induction false} NoNamesWithout(vs: seq<Visit>, id: string)
    requires !Occurs(vs, id)
    ensures NamesIn(vs, id) == []
    decreases |vs|
  {
    if |vs| > 0 {
      var init := vs[..|vs| - 1];
      forall k | 0 <= k < |init|
        ensures init[k].conversation != id
      {
        assert init[k] == vs[k];
      }
      NoNamesWithout(init, id);
    }
  }

  // ---------------------------------------------------------------------------
  // Properties of a whole scan
  // ---------------------------------------------------------------------------

  /** A feed of `n` pages, each linking to the next and the last without a link, is
      fetched exactly `n` times when no match ends the scan early. */
  lemma FeedOfNPages(mode: Mode, url: string, pages: seq<Option<ConversationPage>>)
    requires |pages| >= 1
    requires forall k :: 0 <= k < |pages| - 1 ==> Continues(NextOf(PageAt(pages, k)))
    requires !Continues(NextOf(PageAt(pages, |pages| - 1)))
    requires mode.Listing? || mode.SelfOnly?
    ensures |Follow(mode, url, pages).urls| == |pages|
  {
    var t := Follow(mode, url, pages);
    FollowStopsAtMatch(mode, url, pages);
    FollowLinks(mode, url, pages);
    FollowEnd(mode, url, pages);
  }

  /** The self-mapping holds every visit of the user's own blog before the scan ended,
      whether or not a conversation was asked for. */
  lemma ScanRecordsSelf(blogName: string, now: string, conversation: string, partner: string,
                        pages: seq<Option<ConversationPage>>)
    ensures var r := Scan(blogName, now, conversation, partner, pages);
      forall k :: 0 <= k < |r.seen| && IsSelf(BlogName.Normalize(blogName), r.seen[k].participant) ==>
        r.seen[k].participant.uuid in r.state.uuids
  {
    var r := Scan(blogName, now, conversation, partner, pages);
    SelfAlwaysRecorded(BlogName.Normalize(blogName), ModeOf(conversation, partner), StartState(conversation), r.seen);
  }

  /** A prefix of a feed that ends at its first visit of `id`, or is the whole feed
      and holds no such visit, decides whether `id` occurs in the feed. */
  lemma FirstMatchInFeed(seen: seq<Visit>, feed: seq<Visit>, stopped: bool, id: string)
    requires seen <= feed
    requires !stopped ==> seen == feed
    requires NoEarlyMatch(ById(id), seen, stopped)
    requires EndsAtMatch(ById(id), seen, stopped)
    ensures stopped <==> Occurs(feed, id)
    ensures stopped ==> |seen| - 1 == FirstPos(feed, id)
  {
    if stopped {
      var j := |seen| - 1;
      assert feed[j] == seen[j];
      forall q | 0 <= q < j
        ensures feed[q].conversation != id
      {
        assert feed[q] == seen[q];
      }
    }
  }

  /** The state a scan by id reaches: the matching participant recorded, the chosen id
      kept, and no index built. */
  lemma ByIdState(blog: string, id: string, seen: seq<Visit>, stopped: bool)
    requires NoEarlyMatch(ById(id), seen, stopped)
    requires EndsAtMatch(ById(id), seen, stopped)
    ensures var s := Apply(blog, ById(id), StartState(id), seen);
      && (stopped ==>
            var p := seen[|seen| - 1].participant;
            p.uuid in s.uuids && s.uuids[p.uuid] == p.name)
      && s.chosen == id
      && s.index == NoConversations
  {
    var mode := ById(id);
    var st := StartState(id);
    IndexOnlyWhenListing(blog, mode, st, seen);
    if stopped {
      var j := |seen| - 1;
      MatchRecorded(blog, mode, st, seen);
      ChosenOnlyAtMatch(blog, mode, st, seen[..j]);
      assert seen == seen[..j] + [seen[j]];
      ApplySnoc(blog, mode, st, seen[..j], seen[j]);
    } else {
      ChosenOnlyAtMatch(blog, mode, st, seen);
    }
  }

  /** After a whole scan the uuid map holds only the uuids of the blog's own participants
      and of the participant of the stopping visit: in listing mode, and with both an id
      and a partner, only the blog's own. */
  lemma ScanRecordsOnlySelfOrMatch(blogName: string, now: string, conversation: string, partner: string,
                                   pages: seq<Option<ConversationPage>>)
    ensures var r := Scan(blogName, now, conversation, partner, pages);
      var blog := BlogName.Normalize(blogName);
      forall u :: u in r.state.uuids ==>
        exists k :: 0 <= k < |r.seen| && Recorded(blog, ModeOf(conversation, partner), r.seen[k], u)
  {
    var r := Scan(blogName, now, conversation, partner, pages);
    UuidKeysOnlySelfOrMatch(BlogName.Normalize(blogName), ModeOf(conversation, partner), StartState(conversation), r.seen);
  }

  /** With a conversation id given, the scan ends exactly when a fetched page holds that
      conversation; it ends at the first visit of it, whose participant is recorded. */
  lemma ScanById(blogName: string, now: string, conversation: string,
                 pages: seq<Option<ConversationPage>>)
    requires conversation != ""
    ensures var r := Scan(blogName, now, conversation, "", pages);
      var feed := Feed(pages, |r.urls|);
      && (r.stopped <==> Occurs(feed, conversation))
      && (r.stopped ==>
            var j := |r.seen| - 1;
            && j == FirstPos(feed, conversation)
            && feed[j].participant.uuid in r.state.uuids
            && r.state.uuids[feed[j].participant.uuid] == feed[j].participant.name)
      && r.state.chosen == conversation
      && r.state.index == NoConversations
  {
    var blog := BlogName.Normalize(blogName);
    var mode := ById(conversation);
    var url := FirstUrl(blog, now);
    var r := ScanPages(blog, mode, StartState(conversation), url, pages);
    ScanPagesFacts(blog, mode, StartState(conversation), url, pages);
    FirstMatchInFeed(r.seen, Feed(pages, |r.urls|), r.stopped, conversation);
    ByIdState(blog, conversation, r.seen, r.stopped);
    if r.stopped {
      assert Feed(pages, |r.urls|)[|r.seen| - 1] == r.seen[|r.seen| - 1];
    }
  }

  /** With neither an id nor a partner, the scan reads every fetched page to the end and
      indexes every conversation on them. */
  lemma ScanListing(blogName: string, now: string, pages: seq<Option<ConversationPage>>)
    ensures var r := Scan(blogName, now, "", "", pages);
      && !r.stopped
      && r.seen == Feed(pages, |r.urls|)
      && IndexOf(r.state.index, r.seen)
      && r.state.chosen == ""
  {
    var blog := BlogName.Normalize(blogName);
    var st := StartState("");
    var url := FirstUrl(blog, now);
    var r := ScanPages(blog, Listing, st, url, pages);
    ScanPagesFacts(blog, Listing, st, url, pages);
    ListingIndex(blog, st, r.seen);
    ChosenOnlyAtMatch(blog, Listing, st, r.seen);
  }

  /** Within a page, the first visit of a conversation id is the first participant of the
      first conversation with that id that has participants. */
  lemma {:induction false} FirstVisitOpensConversation(cs: seq<Conversation>, id: string)
    requires Occurs(Visits(cs), id)
    ensures exists m :: (FirstNonEmpty(cs, id, m) &&
      Visits(cs)[FirstPos(Visits(cs), id)] == Visit(id, cs[m].participants[0]))
    decreases |cs|
  {
    var head := ParticipantsOf(cs[0]);
    var vs := Visits(cs);
    assert vs == head + Visits(cs[1..]);
    if cs[0].id == id && |cs[0].participants| > 0 {
      assert vs[0] == Visit(id, cs[0].participants[0]);
      assert FirstPos(vs, id) == 0;
      assert FirstNonEmpty(cs, id, 0);
    } else {
      assert forall k :: 0 <= k < |head| ==> head[k].conversation != id;
      var tail := Visits(cs[1..]);
      assert Occurs(tail, id) by {
        var k :| 0 <= k < |vs| && vs[k].conversation == id;
        assert k >= |head|;
        assert tail[k - |head|] == vs[k];
      }
      FirstVisitOpensConversation(cs[1..], id);
      var m :| FirstNonEmpty(cs[1..], id, m) &&
        tail[FirstPos(tail, id)] == Visit(id, cs[1..][m].participants[0]);
      FirstPosAfter(head, tail, id);
      assert vs[FirstPos(vs, id)] == tail[FirstPos(tail, id)];
      forall m' | 0 <= m' < m + 1 && cs[m'].id == id
        ensures |cs[m'].participants| == 0
      {
        if m' > 0 {
          assert cs[m'] == cs[1..][m' - 1];
        }
      }
      assert cs[m + 1] == cs[1..][m];
      assert FirstNonEmpty(cs, id, m + 1);
    }
  }

  /** `cs[m]` is the first conversation with id `id` that has participants. */
  predicate FirstNonEmpty(cs: seq<Conversation>, id: string, m: int)
  {
    && 0 <= m < |cs| && cs[m].id == id && |cs[m].participants| > 0
    && forall m' :: 0 <= m' < m && cs[m'].id == id ==> |cs[m'].participants| == 0
  }

  lemma FirstPosAfter(head: seq<Visit>, tail: seq<Visit>, id: string)
    requires forall k :: 0 <= k < |head| ==> head[k].conversation != id
    ensures FirstPos(head + tail, id) == |head| + FirstPos(tail, id)
  {
    var w := head + tail;
    var a := FirstPos(w, id);
    var b := FirstPos(tail, id);
    if |head| + b < |w| {
      assert w[|head| + b] == tail[b];
    }
  }

  // ---------------------------------------------------------------------------
  // The menu and the selection loop
  // ---------------------------------------------------------------------------

  /** `$menu[$i] = $id` for `$i` counting from 1 over the index in key order. */
  function Menu(ids: seq<string>): (m: map<nat, string>)
    ensures forall i :: i in m <==> 1 <= i <= |ids|
    ensures forall i :: 1 <= i <= |ids| ==> m[i] == ids[i - 1]
  {
    if |ids| == 0 then map[] else Menu(ids[..|ids| - 1])[|ids| := ids[|ids| - 1]]
  }

  /** `isset($menu[$choice])` for the typed line: the line must read as an existing key. */
  predicate ValidChoice(menu: map<nat, string>, choice: string)
  {
    ParseNat(choice).Some? && ParseNat(choice).value in menu
  }

  /** The conversation picked, and how many lines were read to pick it. */
  datatype Selection = Selection(id: string, prompts: nat)

  /** The do-while selection loop over the lines the user types. It never ends when no
      line is valid; running out of lines without a valid one is `None`. */
  function Select(menu: map<nat, string>, choices: seq<string>): (r: Option<Selection>)
    ensures r.Some? ==>
      && 1 <= r.value.prompts <= |choices|
      && ValidChoice(menu, choices[r.value.prompts - 1])
      && r.value.id == menu[ParseNat(choices[r.value.prompts - 1]).value]
      && (forall k :: 0 <= k < r.value.prompts - 1 ==> !ValidChoice(menu, choices[k]))
    ensures r.None? <==> forall k :: 0 <= k < |choices| ==> !ValidChoice(menu, choices[k])
  {
    if |choices| == 0 then None
    else if ValidChoice(menu, choices[0]) then Some(Selection(menu[ParseNat(choices[0]).value], 1))
    else
      match Select(menu, choices[1..])
      case None => None
      case Some(s) => Some(Selection(s.id, s.prompts + 1))
  }

  /** A typed line selects an entry exactly when it is the decimal spelling of a number
      from 1 to the number of conversations: "01", "+1" or "1.0" do not. */
  lemma ValidChoiceIff(ids: seq<string>, choice: string)
    ensures ValidChoice(Menu(ids), choice) <==>
      exists i: nat :: 1 <= i <= |ids| && choice == NatToString(i)
  {
    if ValidChoice(Menu(ids), choice) {
      var i := ParseNat(choice).value;
      PrintedParsed(choice, i);
    }
    if exists i: nat :: 1 <= i <= |ids| && choice == NatToString(i) {
      var i: nat :| 1 <= i <= |ids| && choice == NatToString(i);
      ParsePrinted(i);
    }
  }

  /** The conversation used from here on: the one given or found by the scan, otherwise
      the one picked from the menu. */
  function Resolve(run: ScanRun, choices: seq<string>): (r: Option<Selection>)
    ensures run.state.chosen != "" ==> r == Some(Selection(run.state.chosen, 0))
    ensures run.state.chosen == "" && r.Some? ==> r.value.id in run.state.index.ids
  {
    if run.state.chosen != "" then Some(Selection(run.state.chosen, 0))
    else Select(Menu(run.state.index.ids), choices)
  }

  /** After a listing scan, menu entry `i` is the `i`-th conversation first seen on the
      feed, every conversation seen has an entry, and the conversation finally selected
      is one of them. */
  lemma MenuListsSeenConversations(blogName: string, now: string,
                                   pages: seq<Option<ConversationPage>>, choices: seq<string>)
    ensures var r := Scan(blogName, now, "", "", pages);
      var ids := r.state.index.ids;
      var menu := Menu(ids);
      && (forall i :: i in menu ==> 1 <= i <= |ids| && Occurs(r.seen, menu[i]))
      && (forall i, j :: i in menu && j in menu && i < j ==> FirstPos(r.seen, menu[i]) < FirstPos(r.seen, menu[j]))
      && (forall id :: Occurs(r.seen, id) ==> exists i :: i in menu && menu[i] == id)
      && (Resolve(r, choices).Some? ==> Occurs(r.seen, Resolve(r, choices).value.id))
  {
    var r := Scan(blogName, now, "", "", pages);
    ScanListing(blogName, now, pages);
    var ids := r.state.index.ids;
    var menu := Menu(ids);
    forall id | Occurs(r.seen, id)
      ensures exists i :: i in menu && menu[i] == id
    {
      var k :| 0 <= k < |ids| && ids[k] == id;
      assert menu[k + 1] == id;
    }
  }

  /** Three conversations: an out-of-range number, zero and a padded number are all
      refused and asked for again before "2" picks the second one. */
  lemma ThreeConversationMenu()
    ensures Select(Menu(["a", "b", "c"]), ["4", "0", "02", "2"]) == Some(Selection("b", 4))
  {
    var menu := Menu(["a", "b", "c"]);
    assert ParseNat("4") == Some(4) by { assert DigitsValue("4") == 4; }
    assert ParseNat("0") == Some(0) by { assert DigitsValue("0") == 0; }
    assert ParseNat("02") == None;
    assert ParseNat("2") == Some(2) by { assert DigitsValue("2") == 2; }
    assert 4 !in menu && 0 !in menu && 2 in menu;
  }

  /** A partner that never turns up leaves the menu empty, so no line can select
      anything and the selection loop would never end. */
  lemma PartnerNotFoundNoSelection(blogName: string, now: string, partner: string,
                                   pages: seq<Option<ConversationPage>>, choices: seq<string>)
    requires partner != ""
    requires !Scan(blogName, now, "", partner, pages).stopped
    ensures Resolve(Scan(blogName, now, "", partner, pages), choices) == None
  {
    var blog := BlogName.Normalize(blogName);
    var mode := ModeOf("", partner);
    var st := StartState("");
    var url := FirstUrl(blog, now);
    var r := ScanPages(blog, mode, st, url, pages);
    ScanPagesFacts(blog, mode, st, url, pages);
    IndexOnlyWhenListing(blog, mode, st, r.seen);
    ChosenOnlyAtMatch(blog, mode, st, r.seen);
    assert Menu([]) == map[];
  }
}

=== FILE: login.dfy ===
/** The login handshake: scrape the bearer token from the login page, announce the
    e-mail address, then submit the password up to three times, asking the user for
    a second-factor code when the token endpoint demands one. Every network reply
    arrives already decoded from a script, and the user's typed lines come from a
    sequence. */
module Login {
  import opened Wrappers
  import opened Text

  /** The literal that precedes the token in the login page. */
  const TokenPrefix: string := "\"API_TOKEN\":\""

  /** Submissions of the password allowed before giving up. */
  const MaxAttempts: nat := 3

  // ---------------------------------------------------------------------------
  // Token extraction: preg_match('/"API_TOKEN":"(.*?)"/', page)
  // ---------------------------------------------------------------------------

  /** The pattern matches at `i` with capture `token`: the prefix, then the shortest run
      of characters other than newline (which `.` does not match) up to a double quote. */
  predicate TokenAt(page: string, i: int, token: string)
  {
    && 0 <= i
    && i + |TokenPrefix| + |token| < |page|
    && page[i..i + |TokenPrefix|] == TokenPrefix
    && page[i + |TokenPrefix|..i + |TokenPrefix| + |token|] == token
    && page[i + |TokenPrefix| + |token|] == '"'
    && (forall k :: 0 <= k < |token| ==> token[k] != '"' && token[k] != '\n')
  }

  /** The first position at or after `j` holding a quote or a newline, or the end. */
  function StopAt(page: string, j: nat): (r: nat)
    requires j <= |page|
    ensures j <= r <= |page|
    ensures forall k :: j <= k < r ==> page[k] != '"' && page[k] != '\n'
    ensures r < |page| ==> page[r] == '"' || page[r] == '\n'
    decreases |page| - j
  {
    if j == |page| || page[j] == '"' || page[j] == '\n' then j else StopAt(page, j + 1)
  }

  /** A match at `i`, if there is one, captures exactly the text up to `StopAt`. */
  lemma TokenAtStop(page: string, i: nat, token: string)
    requires TokenAt(page, i, token)
    ensures i + |TokenPrefix| <= |page|
    ensures StopAt(page, i + |TokenPrefix|) == i + |TokenPrefix| + |token|
  {
    var j := i + |TokenPrefix|;
    var r := StopAt(page, j);
    forall k | j <= k < j + |token|
      ensures page[k] != '"' && page[k] != '\n'
    {
      assert page[k] == token[k - j];
    }
  }

  /** Leftmost-match search from position `i`. */
  function ExtractFrom(page: string, i: nat): (r: Option<string>)
    ensures r.Some? ==>
      exists k :: i <= k && TokenAt(page, k, r.value) &&
        forall j, t :: i <= j < k ==> !TokenAt(page, j, t)
    ensures r.None? ==> forall j, t :: i <= j ==> !TokenAt(page, j, t)
    decreases |page| - i
  {
    if i + |TokenPrefix| >= |page| then
      assert forall j, t :: i <= j ==> !TokenAt(page, j, t);
      None
    else
      var start := i + |TokenPrefix|;
      var stop := StopAt(page, start);
      if page[i..start] == TokenPrefix && stop < |page| && page[stop] == '"' then
        var token := page[start..stop];
        assert TokenAt(page, i, token) by {
          forall k | 0 <= k < |token|
            ensures token[k] != '"' && token[k] != '\n'
          {
            assert token[k] == page[start + k];
          }
        }
        Some(token)
      else
        var rest := ExtractFrom(page, i + 1);
        assert forall t :: !TokenAt(page, i, t) by {
          forall t | TokenAt(page, i, t)
            ensures false
          {
            TokenAtStop(page, i, t);
          }
        }
        rest
  }

  /** The bearer token scraped from the login page: the capture of the leftmost match,
      or nothing when the page does not contain the pattern. */
  function ExtractToken(page: string): (r: Option<string>)
    ensures r.Some? ==>
      exists i :: TokenAt(page, i, r.value) && forall j, t :: 0 <= j < i ==> !TokenAt(page, j, t)
    ensures r.None? <==> forall i, t :: !TokenAt(page, i, t)
  {
    ExtractFrom(page, 0)
  }

  lemma QuoteOpensMatch(page: string, i: int, token: string)
    requires TokenAt(page, i, token)
    ensures page[i] == '"'
  {
    assert page[i] == page[i..i + |TokenPrefix|][0];
  }

  /** A concrete page: the token is the text between the prefix and the next quote. */
  lemma ExtractExample()
    ensures ExtractToken("x\"API_TOKEN\":\"abc\"y") == Some("abc")
    ensures ExtractToken("") == None
  {
    var page := "x\"API_TOKEN\":\"abc\"y";
    assert TokenAt(page, 1, "abc");
    var r := ExtractToken(page);
    assert r.Some?;
    var i :| TokenAt(page, i, r.value) && forall j, t :: 0 <= j < i ==> !TokenAt(page, j, t);
    assert i <= 1;
    QuoteOpensMatch(page, i, r.value);
    assert page[0] == 'x';
    TokenAtStop(page, 1, r.value);
    TokenAtStop(page, 1, "abc");
  }

  // ---------------------------------------------------------------------------
  // The handshake
  // ---------------------------------------------------------------------------

  datatype Credentials = Credentials(username: string, password: string)

  /** The calls the handshake makes, in order. */
  datatype Request =
    | LoginPage
    | LoginMode(bearer: string, email: string)
    | TokenGrant(bearer: string, username: string, password: string, tfaToken: Option<string>)

  /** A decoded reply of the token endpoint: not JSON at all, a JSON object with an
      `error` field (and possibly an `error_description`), or anything else. */
  datatype TokenReply =
    | InvalidJson
    | ErrorReply(error: string, description: Option<string>)
    | Granted

  datatype LoginError =
    | TokenNotFound
    | MalformedReply
    | Rejected(message: string)
    | AttemptsExceeded

  /** The authenticated session; its cookie jar is not modelled. */
  datatype Session = Session(authToken: string)

  /** What a handshake did: the requests sent, how many times the user was asked for
      a code, and how it ended. */
  datatype LoginRun = LoginRun(requests: seq<Request>, prompts: nat, outcome: Result<Session, LoginError>)

  /** PHP's `empty()` on a string: true for "" and for "0". */
  predicate PhpEmpty(s: string)
  {
    s == "" || s == "0"
  }

  /** The `tfa_token` field of a password submission, present exactly when a code is held. */
  function TfaField(code: string): (f: Option<string>)
    ensures f.Some? <==> !PhpEmpty(code)
    ensures f.Some? ==> f.value == code
  {
    if PhpEmpty(code) then None else Some(code)
  }

  /** The reply to the `k`-th password submission; a missing reply is an empty body,
      which is not valid JSON. */
  function ReplyAt(replies: seq<TokenReply>, k: nat): TokenReply
  {
    if k < |replies| then replies[k] else InvalidJson
  }

  /** The `k`-th line the user types; end of input reads as "". */
  function LineAt(lines: seq<string>, k: nat): string
  {
    if k < |lines| then lines[k] else ""
  }

  /** The marker the token endpoint's error description carries when a second factor is needed. */
  const TfaMarker: string := "tfa_token"

  /** The reply asks for a second factor: its description (or "" when it has none)
      mentions the marker in any letter case. The marker is already lower case, so
      lower-casing the description alone suffices; see `AsksForCodeIgnoresCase`. */
  predicate AsksForCode(reply: TokenReply)
  {
    reply.ErrorReply? && Contains(Lower(reply.description.GetOr("")), TfaMarker)
  }

  /** `AsksForCode` is the case-insensitive search `stripos(description, "tfa_token")`. */
  lemma AsksForCodeIgnoresCase(reply: TokenReply)
    ensures AsksForCode(reply) <==>
      reply.ErrorReply? && ContainsIgnoringCase(reply.description.GetOr(""), TfaMarker)
  {
    assert Lower(TfaMarker) == TfaMarker;
  }

  /** The code held at the `k`-th submission: the one given up front for the first, and
      the line typed at the `k`-th prompt afterwards (a retry happens only after a prompt). */
  function HeldCode(initial: string, codes: seq<string>, k: nat): string
  {
    if k == 0 then initial else LineAt(codes, k - 1)
  }

  /** The `k`-th submission leads to a prompt and another submission. */
  predicate Retries(initial: string, codes: seq<string>, replies: seq<TokenReply>, k: nat)
  {
    AsksForCode(ReplyAt(replies, k)) && PhpEmpty(HeldCode(initial, codes, k))
  }

  /** How a submission that does not retry ends. */
  function Verdict(reply: TokenReply, bearer: string): Result<Session, LoginError>
  {
    match reply
    case InvalidJson => Failure(MalformedReply)
    case ErrorReply(error, description) => Failure(Rejected(description.GetOr(error)))
    case Granted => Success(Session(bearer))
  }

  function Grant(c: Credentials, bearer: string, code: string): Request
  {
    TokenGrant(bearer, c.username, c.password, TfaField(code))
  }

  /** The password loop, entered with `sent` submissions already made. */
  function PasswordLoop(c: Credentials, bearer: string, initial: string, codes: seq<string>,
                        replies: seq<TokenReply>, sent: nat): (run: LoginRun)
    requires sent <= MaxAttempts
    ensures sent + |run.requests| <= MaxAttempts
    ensures forall k :: 0 <= k < |run.requests| ==>
      run.requests[k] == Grant(c, bearer, HeldCode(initial, codes, sent + k))
    ensures forall k :: sent <= k < sent + |run.requests| - 1 ==> Retries(initial, codes, replies, k)
    ensures run.outcome == Failure(AttemptsExceeded) <==>
      sent + |run.requests| == MaxAttempts &&
      forall k :: sent <= k < MaxAttempts ==> Retries(initial, codes, replies, k)
    ensures run.outcome != Failure(AttemptsExceeded) ==>
      |run.requests| >= 1 &&
      !Retries(initial, codes, replies, sent + |run.requests| - 1) &&
      run.outcome == Verdict(ReplyAt(replies, sent + |run.requests| - 1), bearer)
    ensures run.prompts == if run.outcome == Failure(AttemptsExceeded) then |run.requests| else |run.requests| - 1
    decreases MaxAttempts - sent
  {
    if sent + 1 > MaxAttempts then
      LoginRun([], 0, Failure(AttemptsExceeded))
    else
      var request := Grant(c, bearer, HeldCode(initial, codes, sent));
      if Retries(initial, codes, replies, sent) then
        var rest := PasswordLoop(c, bearer, initial, codes, replies, sent + 1);
        LoginRun([request] + rest.requests, rest.prompts + 1, rest.outcome)
      else
        LoginRun([request], 0, Verdict(ReplyAt(replies, sent), bearer))
  }

  /** The whole handshake: login page, then (if a token was found) the e-mail
      announcement, whose reply is never looked at, then the password loop. */
  function Authenticate(c: Credentials, initial: string, loginPage: string,
                        replies: seq<TokenReply>, codes: seq<string>): (run: LoginRun)
    ensures 1 <= |run.requests| <= 2 + MaxAttempts
    ensures run.requests[0] == LoginPage
    ensures run.outcome == Failure(TokenNotFound) <==> ExtractToken(loginPage).None?
    ensures run.outcome == Failure(TokenNotFound) ==> |run.requests| == 1 && run.prompts == 0
    ensures ExtractToken(loginPage).Some? ==>
      var token := ExtractToken(loginPage).value;
      && |run.requests| >= 2
      && run.requests[1] == LoginMode(token, c.username)
      && (forall k :: 2 <= k < |run.requests| ==>
            run.requests[k] == Grant(c, token, HeldCode(initial, codes, k - 2)))
      && (run.outcome.Success? ==> run.outcome.value == Session(token))
  {
    match ExtractToken(loginPage)
    case None => LoginRun([LoginPage], 0, Failure(TokenNotFound))
    case Some(token) =>
      var loop := PasswordLoop(c, token, initial, codes, replies, 0);
      var requests := [LoginPage, LoginMode(token, c.username)] + loop.requests;
      assert forall k :: 2 <= k < |requests| ==> requests[k] == loop.requests[k - 2];
      LoginRun(requests, loop.prompts, loop.outcome)
  }

  /** One password submission: invalid JSON fails at once; a second-factor demand while
      no code is held prompts and submits again; any other error fails with its
      description (or its error code when there is none); no error is a success. */
  lemma OneSubmission(c: Credentials, bearer: string, initial: string, codes: seq<string>,
                      replies: seq<TokenReply>, sent: nat)
    requires sent < MaxAttempts
    ensures var run := PasswordLoop(c, bearer, initial, codes, replies, sent);
      var reply := ReplyAt(replies, sent);
      var request := Grant(c, bearer, HeldCode(initial, codes, sent));
      && |run.requests| >= 1 && run.requests[0] == request
      && (reply == InvalidJson ==> run == LoginRun([request], 0, Failure(MalformedReply)))
      && (reply == Granted ==> run == LoginRun([request], 0, Success(Session(bearer))))
      && (reply.ErrorReply? && !Retries(initial, codes, replies, sent) ==>
            run == LoginRun([request], 0, Failure(Rejected(reply.description.GetOr(reply.error)))))
      && (Retries(initial, codes, replies, sent) ==>
            var rest := PasswordLoop(c, bearer, initial, codes, replies, sent + 1);
            run == LoginRun([request] + rest.requests, rest.prompts + 1, rest.outcome))
  {
  }

  // ---------------------------------------------------------------------------
  // Properties of the handshake
  // ---------------------------------------------------------------------------

  /** Token requests in a run. */
  function Grants(requests: seq<Request>): nat
  {
    if |requests| == 0 then 0 else (if requests[0].TokenGrant? then 1 else 0) + Grants(requests[1..])
  }

  lemma {:induction false} GrantsAppend(a: seq<Request>, b: seq<Request>)
    ensures Grants(a + b) == Grants(a) + Grants(b)
  {
    if |a| == 0 {
      assert a + b == b;
    } else {
      assert (a + b)[1..] == a[1..] + b;
      GrantsAppend(a[1..], b);
    }
  }

  lemma {:induction false} GrantsAll(rs: seq<Request>)
    requires forall k :: 0 <= k < |rs| ==> rs[k].TokenGrant?
    ensures Grants(rs) == |rs|
  {
    if |rs| > 0 {
      GrantsAll(rs[1..]);
    }
  }

  /** The token endpoint is called at most three times, and giving up happens only
      after exactly three calls, never a fourth. */
  lemma TokenEndpointBudget(c: Credentials, initial: string, page: string,
                            replies: seq<TokenReply>, codes: seq<string>)
    ensures var run := Authenticate(c, initial, page, replies, codes);
      && Grants(run.requests) <= MaxAttempts
      && (run.outcome == Failure(AttemptsExceeded) ==>
            Grants(run.requests) == MaxAttempts && |run.requests| == 2 + MaxAttempts)
  {
    var run := Authenticate(c, initial, page, replies, codes);
    if ExtractToken(page).Some? {
      var token := ExtractToken(page).value;
      var loop := PasswordLoop(c, token, initial, codes, replies, 0);
      assert run.requests == [LoginPage, LoginMode(token, c.username)] + loop.requests;
      GrantsAll(loop.requests);
      GrantsAppend([LoginPage, LoginMode(token, c.username)], loop.requests);
    }
  }

  /** A login that needs no second factor takes exactly three calls: the page, the
      e-mail announcement and one password submission. */
  lemma PlainLoginTakesThreeCalls(c: Credentials, initial: string, page: string,
                                  replies: seq<TokenReply>, codes: seq<string>)
    requires ExtractToken(page).Some?
    requires ReplyAt(replies, 0) == Granted
    ensures var run := Authenticate(c, initial, page, replies, codes);
      var token := ExtractToken(page).value;
      && run.requests == [LoginPage, LoginMode(token, c.username), Grant(c, token, initial)]
      && run.outcome == Success(Session(token))
      && run.prompts == 0
  {
    var token := ExtractToken(page).value;
    var loop := PasswordLoop(c, token, initial, codes, replies, 0);
    assert !Retries(initial, codes, replies, 0);
    assert |loop.requests| == 1;
  }

  /** A second-factor demand while no code is held prompts the user and resubmits
      with the typed code attached (if it is not empty). */
  lemma SecondFactorRetry(c: Credentials, initial: string, page: string,
                          replies: seq<TokenReply>, codes: seq<string>)
    requires ExtractToken(page).Some?
    requires AsksForCode(ReplyAt(replies, 0)) && PhpEmpty(initial)
    ensures var run := Authenticate(c, initial, page, replies, codes);
      var token := ExtractToken(page).value;
      && |run.requests| >= 4
      && run.requests[3] == Grant(c, token, LineAt(codes, 0))
      && run.prompts >= 1
  {
    var token := ExtractToken(page).value;
    var loop := PasswordLoop(c, token, initial, codes, replies, 0);
    assert Retries(initial, codes, replies, 0);
  }

  /** Giving up needs three code demands in a row, so the user must have typed an
      empty code (or "0") at both prompts. */
  lemma ExhaustionNeedsEmptyCodes(c: Credentials, initial: string, page: string,
                                  replies: seq<TokenReply>, codes: seq<string>)
    requires Authenticate(c, initial, page, replies, codes).outcome == Failure(AttemptsExceeded)
    ensures PhpEmpty(initial) && PhpEmpty(LineAt(codes, 0)) && PhpEmpty(LineAt(codes, 1))
    ensures forall k :: 0 <= k < MaxAttempts ==> AsksForCode(ReplyAt(replies, k))
  {
    var token := ExtractToken(page).value;
    var loop := PasswordLoop(c, token, initial, codes, replies, 0);
    assert Retries(initial, codes, replies, 0);
    assert Retries(initial, codes, replies, 1);
    assert Retries(initial, codes, replies, 2);
  }

  /** A login succeeds exactly when one of the three submissions is granted and every
      earlier one was a second-factor demand with no code held. */
  lemma SuccessIff(c: Credentials, initial: string, page: string,
                   replies: seq<TokenReply>, codes: seq<string>)
    ensures Authenticate(c, initial, page, replies, codes).outcome.Success? <==>
      && ExtractToken(page).Some?
      && exists k :: 0 <= k < MaxAttempts && ReplyAt(replies, k) == Granted &&
           forall j :: 0 <= j < k ==> Retries(initial, codes, replies, j)
  {
    var run := Authenticate(c, initial, page, replies, codes);
    if ExtractToken(page).Some? {
      var token := ExtractToken(page).value;
      var loop := PasswordLoop(c, token, initial, codes, replies, 0);
      if run.outcome.Success? {
        var k := |loop.requests| - 1;
        assert ReplyAt(replies, k) == Granted;
      }
      if exists k :: 0 <= k < MaxAttempts && ReplyAt(replies, k) == Granted &&
           forall j :: 0 <= j < k ==> Retries(initial, codes, replies, j) {
        var k :| 0 <= k < MaxAttempts && ReplyAt(replies, k) == Granted &&
           forall j :: 0 <= j < k ==> Retries(initial, codes, replies, j);
        var n := |loop.requests|;
        assert !Retries(initial, codes, replies, k);
        assert n - 1 <= k;
      }
    }
  }
}

=== FILE: messages.dfy ===
/** Message collection: the page loop with its retries, the day filter, rendering by
    message kind, and the timestamp-keyed record table the transcript is built from. */
module Messages {
  import opened Wrappers
  import Text
  import Conversations

  // ---------------------------------------------------------------------------
  // Decoded messages and pages
  // ---------------------------------------------------------------------------

  /** The kind-specific part of a message, by its `type` field. */
  datatype Body =
    | TextBody(message: string)     // "TEXT"
    | ImageBody(urls: seq<string>)  // "IMAGE": the original-size URL of each image
    | PostRef(postUrl: string)      // "POSTREF": the post's URL, "" once it is gone
    | Unknown(kind: string)         // any other type

  /** A message: its millisecond timestamp, the sender's uuid and its body. */
  datatype Message = Message(ts: int, participant: string, body: Body)

  /** A decoded page: the `next` link (None when absent) and the `data` list (None when
      it is missing or not a countable list). */
  datatype MessagePage = MessagePage(next: Option<string>, data: Option<seq<Message>>)

  /** One reply of the messages endpoint after decoding: only a JSON object ends the
      retry loop. */
  datatype PageReply = NotAnObject | Decoded(page: MessagePage)

  /** `(int)($ts / 1000)`: whole seconds, truncated toward zero. */
  function Seconds(ts: int): (s: int)
    ensures ts >= 0 ==> 0 <= s && s * 1000 <= ts < s * 1000 + 1000
    ensures ts < 0 ==> s <= 0 && s * 1000 - 1000 < ts <= s * 1000
  {
    if ts >= 0 then ts / 1000 else -((-ts) / 1000)
  }

  /** What rendering and filtering depend on: the uuid-to-name map the scan built, the
      day filter as a YYYYMMDD number (None when no date was given), and the local-time
      formatters applied to whole seconds: `day` for "Ymd" read as a number and `stamp`
      for "d/m/Y, H:i:s". */
  datatype Context = Context(names: map<string, string>, cutoff: Option<nat>,
                             day: int -> nat, stamp: int -> string)

  function DayOf(ctx: Context, ts: int): nat
  {
    ctx.day(Seconds(ts))
  }

  /** `$uuid[$participant]`: an unknown uuid reads as null and prints as "". */
  function UserName(names: map<string, string>, uuid: string): string
  {
    if uuid in names then names[uuid] else ""
  }

  const Unavailable: string := "sent a post that's no longer available."

  /** What follows the sender's name; None for a kind that is not rendered. */
  function Content(body: Body): Option<string>
  {
    match body
    case TextBody(message) => Some(message)
    case ImageBody(urls) => Some(Text.Join(" , ", urls))
    case PostRef(url) => Some(if url == "" then Unavailable else url)
    case Unknown(_) => None
  }

  /** The transcript line of a message. */
  function Render(ctx: Context, m: Message): Option<string>
  {
    var content := Content(m.body);
    if content.None? then None
    else Some(ctx.stamp(Seconds(m.ts)) + " " + UserName(ctx.names, m.participant) + ": " + content.value)
  }

  /** Only TEXT, IMAGE and POSTREF messages get a line; it starts with the time stamp and
      the sender's name, and ends with the message text, the image URLs joined by " , ",
      or the post URL (the fixed notice when the post is gone). */
  lemma RenderedLine(ctx: Context, m: Message)
    ensures Render(ctx, m).Some? <==> !m.body.Unknown?
    ensures Render(ctx, m).Some? ==>
      var head := ctx.stamp(Seconds(m.ts)) + " " + UserName(ctx.names, m.participant) + ": ";
      var line := Render(ctx, m).value;
      && |head| <= |line| && line[..|head|] == head
      && line[|head|..] == match m.body
           case TextBody(message) => message
           case ImageBody(urls) => Text.Join(" , ", urls)
           case PostRef(url) => if url == "" then Unavailable else url
           case Unknown(_) => ""
  {
  }

  /** A message whose sender the scan did not record renders with an empty name. */
  lemma UnknownSenderRendersEmpty(ctx: Context, m: Message)
    requires m.participant !in ctx.names && !m.body.Unknown?
    ensures Render(ctx, m) == Some(ctx.stamp(Seconds(m.ts)) + " : " + Content(m.body).value)
  {
    var stamp := ctx.stamp(Seconds(m.ts));
    assert stamp + " " + "" + ": " == stamp + " : ";
  }

  // ---------------------------------------------------------------------------
  // The record table: a PHP array keyed by timestamp
  // ---------------------------------------------------------------------------

  datatype Record = Record(ts: int, line: string)

  function Keys(rs: seq<Record>): set<int>
  {
    if |rs| == 0 then {} else {rs[0].ts} + Keys(rs[1..])
  }

  /** The line stored under `ts`. */
  function Lookup(rs: seq<Record>, ts: int): Option<string>
  {
    if |rs| == 0 then None else if rs[0].ts == ts then Some(rs[0].line) else Lookup(rs[1..], ts)
  }

  /** No timestamp is stored twice. */
  predicate UniqueKeys(rs: seq<Record>)
  {
    |rs| == 0 || (rs[0].ts !in Keys(rs[1..]) && UniqueKeys(rs[1..]))
  }

  lemma {:induction false} LookupKeys(rs: seq<Record>, ts: int)
    ensures Lookup(rs, ts).Some? <==> ts in Keys(rs)
  {
    if |rs| > 0 {
      LookupKeys(rs[1..], ts);
    }
  }

  /** `$records[$ts] = $line`: an existing key keeps its position and takes the new line,
      a new key goes at the end. */
  function Put(rs: seq<Record>, ts: int, line: string): (r: seq<Record>)
    ensures Keys(r) == Keys(rs) + {ts}
    ensures Lookup(r, ts) == Some(line)
    ensures forall k :: k != ts ==> Lookup(r, k) == Lookup(rs, k)
    ensures UniqueKeys(rs) ==> UniqueKeys(r)
    ensures ts !in Keys(rs) ==> r == rs + [Record(ts, line)]
    ensures ts in Keys(rs) ==> |r| == |rs|
  {
    if |rs| == 0 then [Record(ts, line)]
    else if rs[0].ts == ts then [Record(ts, line)] + rs[1..]
    else
      var tail := Put(rs[1..], ts, line);
      assert ([rs[0]] + tail)[1..] == tail;
      assert (rs[1..] + [Record(ts, line)]) == (rs + [Record(ts, line)])[1..];
      [rs[0]] + tail
  }

  lemma {:induction false} KeysAt(rs: seq<Record>, i: nat)
    requires i < |rs|
    ensures rs[i].ts in Keys(rs)
  {
    if i > 0 {
      KeysAt(rs[1..], i - 1);
    }
  }

  /** Overwriting a stored key changes that one entry in place and leaves every other
      entry, and the order, as it was. */
  lemma {:induction false} PutInPlace(rs: seq<Record>, ts: int, line: string)
    requires UniqueKeys(rs)
    ensures var r := Put(rs, ts, line);
      ts in Keys(rs) ==>
        && |r| == |rs|
        && forall i :: 0 <= i < |rs| ==> r[i] == (if rs[i].ts == ts then Record(ts, line) else rs[i])
  {
    var r := Put(rs, ts, line);
    if |rs| > 0 && ts in Keys(rs) {
      if rs[0].ts == ts {
        forall i | 1 <= i < |rs|
          ensures rs[i].ts != ts
        {
          KeysAt(rs[1..], i - 1);
        }
      } else {
        PutInPlace(rs[1..], ts, line);
        assert ts in Keys(rs[1..]);
        assert forall i :: 1 <= i < |rs| ==> r[i] == Put(rs[1..], ts, line)[i - 1];
      }
    }
  }

  // ---------------------------------------------------------------------------
  // Filtering and storing
  // ---------------------------------------------------------------------------

  /** With a day filter, a message from an earlier day ends the whole collection. */
  predicate Halts(ctx: Context, m: Message)
  {
    ctx.cutoff.Some? && DayOf(ctx, m.ts) < ctx.cutoff.value
  }

  /** The message passes the day filter: there is none, or the day is exactly it. */
  predicate OnDay(ctx: Context, m: Message)
  {
    ctx.cutoff.None? || DayOf(ctx, m.ts) == ctx.cutoff.value
  }

  /** The message produces a record. */
  predicate Stored(ctx: Context, m: Message)
  {
    OnDay(ctx, m) && !m.body.Unknown?
  }

  /** The loop body for one message that does not halt. */
  function Store(ctx: Context, rs: seq<Record>, m: Message): seq<Record>
  {
    var line := Render(ctx, m);
    if OnDay(ctx, m) && line.Some? then Put(rs, m.ts, line.value) else rs
  }

  /** Storing a whole run of messages, in order. */
  function StoreAll(ctx: Context, rs: seq<Record>, ms: seq<Message>): seq<Record>
  {
    if |ms| == 0 then rs else Store(ctx, StoreAll(ctx, rs, ms[..|ms| - 1]), ms[|ms| - 1])
  }

  lemma {:induction false} StoreAllAppend(ctx: Context, rs: seq<Record>, a: seq<Message>, b: seq<Message>)
    ensures StoreAll(ctx, rs, a + b) == StoreAll(ctx, StoreAll(ctx, rs, a), b)
    decreases |b|
  {
    if |b| == 0 {
      assert a + b == a;
    } else {
      var init := b[..|b| - 1];
      assert (a + b)[..|a + b| - 1] == a + init;
      assert (a + b)[|a + b| - 1] == b[|b| - 1];
      StoreAllAppend(ctx, rs, a, init);
    }
  }

  lemma StoreAllCons(ctx: Context, rs: seq<Record>, m: Message, ms: seq<Message>)
    ensures StoreAll(ctx, rs, [m] + ms) == StoreAll(ctx, Store(ctx, rs, m), ms)
  {
    StoreAllAppend(ctx, rs, [m], ms);
    assert [m][..0] == [];
  }

  /** The line the last stored message with timestamp `ts` renders to: the reference
      meaning of the record table. */
  function LastLine(ctx: Context, ms: seq<Message>, ts: int): (r: Option<string>)
    ensures r.None? <==> forall i :: 0 <= i < |ms| && ms[i].ts == ts ==> !Stored(ctx, ms[i])
    ensures r.Some? ==> exists i :: (0 <= i < |ms| && ms[i].ts == ts && Stored(ctx, ms[i])
      && Render(ctx, ms[i]) == r
      && forall j :: i < j < |ms| && ms[j].ts == ts ==> !Stored(ctx, ms[j]))
  {
    if |ms| == 0 then None
    else
      var init := ms[..|ms| - 1];
      var last := ms[|ms| - 1];
      if last.ts == ts && Stored(ctx, last) then
        assert ms[|ms| - 1].ts == ts && Stored(ctx, ms[|ms| - 1]);
        Render(ctx, last)
      else
        assert forall i :: 0 <= i < |init| ==> init[i] == ms[i];
        LastLine(ctx, init, ts)
  }

  /** Last write wins: after storing `ms`, the line under `ts` is that of the last stored
      message with that timestamp, or the earlier line when none has it. */
  lemma {:induction false} LastWriteWins(ctx: Context, rs: seq<Record>, ms: seq<Message>, ts: int)
    ensures Lookup(StoreAll(ctx, rs, ms), ts) ==
      if LastLine(ctx, ms, ts).Some? then LastLine(ctx, ms, ts) else Lookup(rs, ts)
    decreases |ms|
  {
    if |ms| > 0 {
      LastWriteWins(ctx, rs, ms[..|ms| - 1], ts);
    }
  }

  /** Storing never loses a key or stores one twice. */
  lemma {:induction false} StoreAllKeys(ctx: Context, rs: seq<Record>, ms: seq<Message>)
    ensures Keys(rs) <= Keys(StoreAll(ctx, rs, ms))
    ensures UniqueKeys(rs) ==> UniqueKeys(StoreAll(ctx, rs, ms))
    decreases |ms|
  {
    if |ms| > 0 {
      StoreAllKeys(ctx, rs, ms[..|ms| - 1]);
    }
  }

  /** A record exists exactly for the timestamps of stored messages, and with a day filter
      every such message is from exactly that day. */
  lemma RecordsFromStoredMessages(ctx: Context, ms: seq<Message>, ts: int)
    ensures ts in Keys(StoreAll(ctx, [], ms)) <==>
      exists i :: 0 <= i < |ms| && ms[i].ts == ts && Stored(ctx, ms[i])
    ensures ctx.cutoff.Some? && ts in Keys(StoreAll(ctx, [], ms)) ==>
      exists i :: 0 <= i < |ms| && ms[i].ts == ts && DayOf(ctx, ts) == ctx.cutoff.value
  {
    LastWriteWins(ctx, [], ms, ts);
    LookupKeys(StoreAll(ctx, [], ms), ts);
  }

  // ---------------------------------------------------------------------------
  // One page of messages
  // ---------------------------------------------------------------------------

  /** The messages of a page before the first one that halts. */
  function Before(ctx: Context, ms: seq<Message>): (r: seq<Message>)
    ensures |r| <= |ms| && r == ms[..|r|]
    ensures forall i :: 0 <= i < |r| ==> !Halts(ctx, ms[i])
    ensures |r| < |ms| ==> Halts(ctx, ms[|r|])
  {
    if |ms| == 0 || Halts(ctx, ms[0]) then []
    else [ms[0]] + Before(ctx, ms[1..])
  }

  datatype PageRun = PageRun(records: seq<Record>, halted: bool)

  /** The loop over one page's messages. */
  function ProcessPage(ctx: Context, rs: seq<Record>, ms: seq<Message>): (r: PageRun)
    ensures r.halted <==> exists i :: 0 <= i < |ms| && Halts(ctx, ms[i])
    ensures r.records == StoreAll(ctx, rs, Before(ctx, ms))
    decreases |ms|
  {
    if |ms| == 0 then PageRun(rs, false)
    else if Halts(ctx, ms[0]) then PageRun(rs, true)
    else
      var r := ProcessPage(ctx, Store(ctx, rs, ms[0]), ms[1..]);
      StoreAllCons(ctx, rs, ms[0], Before(ctx, ms[1..]));
      assert forall i :: 1 <= i < |ms| ==> ms[i] == ms[1..][i - 1];
      r
  }

  // ---------------------------------------------------------------------------
  // The page loop
  // ---------------------------------------------------------------------------

  /** Requests per page before giving up. */
  const Attempts: nat := 5

  /** The reply to the `k`-th request; a missing one is an empty body, not an object. */
  function ReplyAt(replies: seq<PageReply>, k: nat): PageReply
  {
    if k < |replies| then replies[k] else NotAnObject
  }

  /** The outcome of a retry loop: the reply kept and the number of requests made. */
  datatype Attempted = Attempted(reply: PageReply, used: nat)

  /** The `n` replies from position `pos` on all failed to decode to an object. */
  predicate FailedFrom(replies: seq<PageReply>, pos: nat, n: int)
    decreases n
  {
    n <= 0 || (ReplyAt(replies, pos).NotAnObject? && FailedFrom(replies, pos + 1, n - 1))
  }

  lemma {:induction false} FailedFromAt(replies: seq<PageReply>, pos: nat, n: int, k: nat)
    requires FailedFrom(replies, pos, n) && pos <= k < pos + n
    ensures ReplyAt(replies, k).NotAnObject?
    decreases n
  {
    if k > pos {
      FailedFromAt(replies, pos + 1, n - 1, k);
    }
  }

  /** Up to `left` requests from position `pos`, stopping at the first object. */
  function Retry(replies: seq<PageReply>, pos: nat, left: nat): (r: Attempted)
    ensures r.used <= left && (left > 0 ==> r.used >= 1)
    ensures FailedFrom(replies, pos, r.used - 1)
    ensures r.reply == if r.used == 0 then NotAnObject else ReplyAt(replies, pos + r.used - 1)
    ensures r.reply.NotAnObject? ==> r.used == left
    decreases left
  {
    if left == 0 then Attempted(NotAnObject, 0)
    else if ReplyAt(replies, pos).Decoded? then Attempted(ReplyAt(replies, pos), 1)
    else
      var r := Retry(replies, pos + 1, left - 1);
      Attempted(r.reply, r.used + 1)
  }

  /** One page request: its URL, the reply kept, and how many times it was sent. */
  datatype Fetch = Fetch(url: string, reply: PageReply, attempts: nat)

  /** Why the page loop ended. */
  datatype Stop = LastPage | GaveUp | NoData | BeforeCutoff

  /** Whether the loop ends after this page, and why: the reference classification. */
  function Outcome(ctx: Context, f: Fetch): Option<Stop>
  {
    if f.reply.NotAnObject? then Some(GaveUp)
    else if f.reply.page.data.None? then Some(NoData)
    else if exists i :: 0 <= i < |f.reply.page.data.value| && Halts(ctx, f.reply.page.data.value[i])
    then Some(BeforeCutoff)
    else if !Conversations.Continues(f.reply.page.next) then Some(LastPage)
    else None
  }

  /** The messages of a fetched page that the loop body stores or skips. */
  function Handled(ctx: Context, f: Fetch): seq<Message>
  {
    if f.reply.Decoded? && f.reply.page.data.Some? then Before(ctx, f.reply.page.data.value) else []
  }

  function Stream(ctx: Context, fs: seq<Fetch>): seq<Message>
  {
    if |fs| == 0 then [] else Handled(ctx, fs[0]) + Stream(ctx, fs[1..])
  }

  /** One pass of the loop body up to the `next` check: the request with its retries and,
      when the reply has countable data, the loop over its messages. */
  datatype PageStep = PageStep(fetch: Fetch, records: seq<Record>, halted: bool, nextPos: nat)

  function RequestPage(ctx: Context, url: string, replies: seq<PageReply>, pos: nat,
                       rs: seq<Record>): (s: PageStep)
    ensures s.fetch.url == url && 1 <= s.fetch.attempts <= Attempts
    ensures s.halted <==> (s.fetch.reply.Decoded? && s.fetch.reply.page.data.Some?
      && exists i :: 0 <= i < |s.fetch.reply.page.data.value| && Halts(ctx, s.fetch.reply.page.data.value[i]))
    ensures s.records == StoreAll(ctx, rs, Handled(ctx, s.fetch))
    ensures s.fetch.reply.Decoded? ==> pos < s.nextPos <= |replies|
    ensures Tried(replies, pos, s.fetch) && s.nextPos == pos + s.fetch.attempts
  {
    var a := Retry(replies, pos, Attempts);
    var f := Fetch(url, a.reply, a.used);
    if a.reply.Decoded? && a.reply.page.data.Some? then
      var run := ProcessPage(ctx, rs, a.reply.page.data.value);
      PageStep(f, run.records, run.halted, pos + a.used)
    else PageStep(f, rs, false, pos + a.used)
  }

  /** The fetch kept what up to five tries from reply position `start` produced. */
  predicate Tried(replies: seq<PageReply>, start: nat, f: Fetch)
  {
    var a := Retry(replies, start, Attempts);
    f.reply == a.reply && f.attempts == a.used
  }

  datatype Collection = Collection(records: seq<Record>, fetches: seq<Fetch>, stop: Stop)

  /** The page loop from `url`, consuming replies from position `pos`. */
  function Collect(ctx: Context, url: string, replies: seq<PageReply>, pos: nat,
                   rs: seq<Record>): (r: Collection)
    ensures |r.fetches| >= 1 && r.fetches[0].url == url
    ensures forall k :: 0 <= k < |r.fetches| ==> 1 <= r.fetches[k].attempts <= Attempts
    decreases |replies| - pos
  {
    var s := RequestPage(ctx, url, replies, pos, rs);
    var f := s.fetch;
    if f.reply.NotAnObject? then Collection(s.records, [f], GaveUp)
    else if f.reply.page.data.None? then Collection(s.records, [f], NoData)
    else if s.halted then Collection(s.records, [f], BeforeCutoff)
    else if !Conversations.Continues(f.reply.page.next) then Collection(s.records, [f], LastPage)
    else
      var rest := Collect(ctx, NextUrl(f), replies, s.nextPos, s.records);
      Collection(rest.records, [f] + rest.fetches, rest.stop)
  }

  function NextUrl(f: Fetch): string
  {
    if f.reply.Decoded? && f.reply.page.next.Some? then Conversations.Host + f.reply.page.next.value else ""
  }

  /** One turn of the page loop: it stops with the page's outcome, or goes on at the
      page's `next` link with the records so far. */
  lemma CollectUnfold(ctx: Context, url: string, replies: seq<PageReply>, pos: nat, rs: seq<Record>)
    ensures var s := RequestPage(ctx, url, replies, pos, rs);
      var r := Collect(ctx, url, replies, pos, rs);
      && (Outcome(ctx, s.fetch).Some? ==> r == Collection(s.records, [s.fetch], Outcome(ctx, s.fetch).value))
      && (Outcome(ctx, s.fetch).None? ==>
            var rest := Collect(ctx, NextUrl(s.fetch), replies, s.nextPos, s.records);
            s.nextPos > pos && r == Collection(rest.records, [s.fetch] + rest.fetches, rest.stop))
  {
  }

  /** The loop ends exactly at the first page that gives a reason to stop: no object after
      five tries, no countable data, a message before the day filter, or no `next` link;
      each further page is requested at the previous page's `next` link. */
  lemma {:induction false} CollectStops(ctx: Context, url: string, replies: seq<PageReply>, pos: nat,
                                        rs: seq<Record>)
    ensures var r := Collect(ctx, url, replies, pos, rs);
      && (forall k :: 0 <= k < |r.fetches| - 1 ==> Outcome(ctx, r.fetches[k]).None?)
      && Outcome(ctx, r.fetches[|r.fetches| - 1]) == Some(r.stop)
      && (forall k :: 0 <= k < |r.fetches| - 1 ==> r.fetches[k + 1].url == NextUrl(r.fetches[k]))
    decreases |replies| - pos
  {
    var s := RequestPage(ctx, url, replies, pos, rs);
    var f := s.fetch;
    var r := Collect(ctx, url, replies, pos, rs);
    CollectUnfold(ctx, url, replies, pos, rs);
    if Outcome(ctx, f).None? {
      CollectStops(ctx, NextUrl(f), replies, s.nextPos, s.records);
      var rest := Collect(ctx, NextUrl(f), replies, s.nextPos, s.records);
      assert r.fetches == [f] + rest.fetches;
      forall k | 1 <= k < |r.fetches| - 1
        ensures Outcome(ctx, r.fetches[k]).None? && r.fetches[k + 1].url == NextUrl(r.fetches[k])
      {
        assert r.fetches[k] == rest.fetches[k - 1];
        assert r.fetches[k + 1] == rest.fetches[k];
      }
      assert r.fetches[|r.fetches| - 1] == rest.fetches[|rest.fetches| - 1];
    }
  }

  /** The fetches `fs`, in order, were tried from reply position `start` on, each page
      from the reply after the last try of the page before. */
  predicate TriedFrom(replies: seq<PageReply>, start: nat, fs: seq<Fetch>)
    decreases |fs|
  {
    |fs| == 0 || (Tried(replies, start, fs[0]) && TriedFrom(replies, start + fs[0].attempts, fs[1..]))
  }

  /** The tries the fetches made, in all. */
  function Used(fs: seq<Fetch>): nat
  {
    if |fs| == 0 then 0 else fs[0].attempts + Used(fs[1..])
  }

  lemma UsedPrefix(fs: seq<Fetch>, k: nat)
    requires 1 <= k <= |fs|
    ensures Used(fs[..k]) == fs[0].attempts + Used(fs[1..][..k - 1])
  {
    assert fs[..k][1..] == fs[1..][..k - 1];
  }

  /** Fetch `k` of a run tried from `start` was tried from `start` plus the tries of the
      fetches before it. */
  lemma {:induction false} TriedFromAt(replies: seq<PageReply>, start: nat, fs: seq<Fetch>, k: nat)
    requires TriedFrom(replies, start, fs) && k < |fs|
    ensures Tried(replies, start + Used(fs[..k]), fs[k])
    decreases k
  {
    if k == 0 {
      assert fs[..0] == [];
    } else {
      TriedFromAt(replies, start + fs[0].attempts, fs[1..], k - 1);
      UsedPrefix(fs, k);
    }
  }

  /** The loop tries each page up to five times, from the reply after the last try of
      the page before. */
  lemma {:induction false} CollectTriedFrom(ctx: Context, url: string, replies: seq<PageReply>, pos: nat,
                                            rs: seq<Record>)
    ensures TriedFrom(replies, pos, Collect(ctx, url, replies, pos, rs).fetches)
    decreases |replies| - pos
  {
    var s := RequestPage(ctx, url, replies, pos, rs);
    var f := s.fetch;
    var r := Collect(ctx, url, replies, pos, rs);
    CollectUnfold(ctx, url, replies, pos, rs);
    if Outcome(ctx, f).None? {
      var rest := Collect(ctx, NextUrl(f), replies, s.nextPos, s.records);
      CollectTriedFrom(ctx, NextUrl(f), replies, s.nextPos, s.records);
      assert r.fetches[1..] == rest.fetches;
    } else {
      assert r.fetches[1..] == [];
    }
  }

  /** Each fetch `k` was tried from `start` plus the tries of the fetches before it. */
  predicate TriedInTurn(replies: seq<PageReply>, start: nat, fs: seq<Fetch>)
  {
    forall k :: 0 <= k < |fs| ==> Tried(replies, start + Used(fs[..k]), fs[k])
  }

  lemma TriedFromAll(replies: seq<PageReply>, start: nat, fs: seq<Fetch>)
    requires TriedFrom(replies, start, fs)
    ensures TriedInTurn(replies, start, fs)
  {
    forall k | 0 <= k < |fs|
      ensures Tried(replies, start + Used(fs[..k]), fs[k])
    {
      TriedFromAt(replies, start, fs, k);
    }
  }

  /** Fetch `k` was tried up to five times from the reply after all the tries of the
      fetches before it. */
  lemma CollectTries(ctx: Context, url: string, replies: seq<PageReply>, pos: nat, rs: seq<Record>)
    ensures TriedInTurn(replies, pos, Collect(ctx, url, replies, pos, rs).fetches)
  {
    CollectTriedFrom(ctx, url, replies, pos, rs);
    TriedFromAll(replies, pos, Collect(ctx, url, replies, pos, rs).fetches);
  }

  /** A run of fetches whose last reply is no object spent all five tries on it. */
  lemma LastTriedAll(replies: seq<PageReply>, start: nat, fs: seq<Fetch>)
    requires TriedFrom(replies, start, fs) && |fs| > 0 && fs[|fs| - 1].reply.NotAnObject?
    ensures fs[|fs| - 1].attempts == Attempts
  {
    TriedFromAt(replies, start, fs, |fs| - 1);
  }

  /** A loop that gave up did so after all five tries of its last page. */
  lemma CollectGivesUp(ctx: Context, url: string, replies: seq<PageReply>, pos: nat, rs: seq<Record>)
    ensures var r := Collect(ctx, url, replies, pos, rs);
      r.stop == GaveUp ==>
        && r.fetches[|r.fetches| - 1].reply.NotAnObject?
        && r.fetches[|r.fetches| - 1].attempts == Attempts
  {
    var r := Collect(ctx, url, replies, pos, rs);
    CollectStops(ctx, url, replies, pos, rs);
    CollectTriedFrom(ctx, url, replies, pos, rs);
    if r.stop == GaveUp {
      LastTriedAll(replies, pos, r.fetches);
    }
  }

  /** The records are those of storing, in order, every message the loop handled: each
      page's messages up to the first that halts. */
  lemma {:induction false} CollectRecords(ctx: Context, url: string, replies: seq<PageReply>, pos: nat,
                                          rs: seq<Record>)
    ensures var r := Collect(ctx, url, replies, pos, rs);
      r.records == StoreAll(ctx, rs, Stream(ctx, r.fetches))
    decreases |replies| - pos
  {
    var s := RequestPage(ctx, url, replies, pos, rs);
    var f := s.fetch;
    var r := Collect(ctx, url, replies, pos, rs);
    CollectUnfold(ctx, url, replies, pos, rs);
    if Outcome(ctx, f).None? {
      CollectRecords(ctx, NextUrl(f), replies, s.nextPos, s.records);
      var rest := Collect(ctx, NextUrl(f), replies, s.nextPos, s.records);
      assert r.fetches == [f] + rest.fetches;
      assert ([f] + rest.fetches)[1..] == rest.fetches;
      assert Stream(ctx, r.fetches) == Handled(ctx, f) + Stream(ctx, rest.fetches);
      StoreAllAppend(ctx, rs, Handled(ctx, f), Stream(ctx, rest.fetches));
    } else {
      assert r.fetches == [f] && r.records == s.records;
      assert [f][1..] == [];
      assert Stream(ctx, r.fetches) == Handled(ctx, f) + Stream(ctx, []);
      assert Handled(ctx, f) + [] == Handled(ctx, f);
    }
  }

  /** The first URL of the messages feed; `now` is the decimal clock reading in seconds. */
  function MessagesUrl(conversation: string, blog: string, now: string): string
  {
    Conversations.Host + "/svc/conversations/messages?conversation_id=" + conversation
      + "&participant=" + blog + "&_=" + now + "000"
  }

  /** The whole collection for one conversation, from an empty table. */
  function CollectMessages(ctx: Context, conversation: string, blog: string, now: string,
                           replies: seq<PageReply>): (r: Collection)
    ensures |r.fetches| >= 1 && r.fetches[0].url == MessagesUrl(conversation, blog, now)
    ensures UniqueKeys(r.records)
    ensures r.records == StoreAll(ctx, [], Stream(ctx, r.fetches))
  {
    var r := Collect(ctx, MessagesUrl(conversation, blog, now), replies, 0, []);
    CollectRecords(ctx, MessagesUrl(conversation, blog, now), replies, 0, []);
    StoreAllKeys(ctx, [], Stream(ctx, r.fetches));
    r
  }
}

=== FILE: text.dfy ===
/** String helpers with the semantics of the PHP built-ins the script relies on. */
module Text {
  import opened Wrappers

  /** `implode(sep, parts)` (also spelled `join`). */
  function Join(sep: string, parts: seq<string>): string
    decreases |parts|, 0
  {
    if |parts| == 0 then "" else parts[0] + JoinTail(sep, parts[1..])
  }

  /** The separator-prefixed remainder of a join: empty for no parts. */
  function JoinTail(sep: string, parts: seq<string>): string
    decreases |parts|, 1
  {
    if |parts| == 0 then "" else sep + Join(sep, parts)
  }

  /** `explode(sep, s)` for a one-character separator: the pieces between separators. */
  function Explode(sep: char, s: string): (parts: seq<string>)
    ensures |parts| >= 1
    ensures forall k :: 0 <= k < |parts| ==> sep !in parts[k]
  {
    if |s| == 0 then [""]
    else
      var rest := Explode(sep, s[1..]);
      if s[0] == sep then [""] + rest
      else [[s[0]] + rest[0]] + rest[1..]
  }

  lemma JoinCons(sep: string, a: string, b: string, tail: seq<string>)
    ensures Join(sep, [a + b] + tail) == a + Join(sep, [b] + tail)
  {
    assert ([a + b] + tail)[1..] == tail;
    assert ([b] + tail)[1..] == tail;
  }

  /** Joining the pieces of `explode` with the separator gives back the original string. */
  lemma {:induction false} JoinExplode(sep: char, s: string)
    ensures Join([sep], Explode(sep, s)) == s
  {
    if |s| == 0 {
    } else {
      var rest := Explode(sep, s[1..]);
      JoinExplode(sep, s[1..]);
      if s[0] == sep {
        assert ([""] + rest)[1..] == rest;
        assert Join([sep], [""] + rest) == [sep] + Join([sep], rest);
        assert s == [s[0]] + s[1..];
      } else {
        assert rest == [rest[0]] + rest[1..];
        JoinCons([sep], [s[0]], rest[0], rest[1..]);
        assert s == [s[0]] + s[1..];
      }
    }
  }

  /** A string without the separator explodes to itself. */
  lemma {:induction false} ExplodeWord(sep: char, w: string)
    requires sep !in w
    ensures Explode(sep, w) == [w]
  {
    if |w| > 0 {
      ExplodeWord(sep, w[1..]);
      assert [w[0]] + w[1..] == w;
    }
  }

  /** A leading separator opens an empty first piece. */
  lemma ExplodeSep(sep: char, s: string, t: string)
    requires t == [sep] + s
    ensures Explode(sep, t) == [""] + Explode(sep, s)
  {
    assert t[1..] == s;
  }

  /** A leading ordinary character joins the first piece. */
  lemma ExplodeChar(sep: char, ch: char, s: string, first: string, rest: seq<string>, t: string, first': string)
    requires ch != sep && Explode(sep, s) == [first] + rest && t == [ch] + s && first' == [ch] + first
    ensures Explode(sep, t) == [first'] + rest
  {
    assert t[1..] == s;
    assert ([first] + rest)[1..] == rest;
  }

  /** `s` with every occurrence of `c` deleted. */
  function Remove(c: char, s: string): (r: string)
    ensures c !in r
    ensures |r| <= |s|
  {
    if |s| == 0 then "" else (if s[0] == c then "" else [s[0]]) + Remove(c, s[1..])
  }

  lemma {:induction false} RemoveAppend(c: char, a: string, b: string)
    ensures Remove(c, a + b) == Remove(c, a) + Remove(c, b)
  {
    if |a| == 0 {
      assert a + b == b;
    } else {
      assert (a + b)[1..] == a[1..] + b;
      RemoveAppend(c, a[1..], b);
    }
  }

  lemma {:induction false} RemoveAbsent(c: char, s: string)
    requires c !in s
    ensures Remove(c, s) == s
  {
    if |s| > 0 {
      RemoveAbsent(c, s[1..]);
      assert s == [s[0]] + s[1..];
    }
  }

  /** `needle` occurs in `hay` starting at position `i`. */
  predicate OccursAt(hay: string, needle: string, i: int)
  {
    0 <= i && i + |needle| <= |hay| && hay[i..i + |needle|] == needle
  }

  /** `strpos(hay, needle) !== false`. */
  predicate Contains(hay: string, needle: string)
  {
    exists i :: 0 <= i <= |hay| - |needle| && OccursAt(hay, needle, i)
  }

  /** ASCII lower-casing, as `strtolower`/`stripos` do since PHP 8.2. */
  function LowerChar(ch: char): char
  {
    if 'A' <= ch <= 'Z' then (ch as int + 32) as char else ch
  }

  function Lower(s: string): (r: string)
    ensures |r| == |s|
  {
    if |s| == 0 then "" else [LowerChar(s[0])] + Lower(s[1..])
  }

  /** `stripos(hay, needle) !== false`: containment ignoring ASCII case. */
  predicate ContainsIgnoringCase(hay: string, needle: string)
  {
    Contains(Lower(hay), Lower(needle))
  }

  /** The decimal digit character for `d`. */
  function DigitChar(d: nat): char
    requires d < 10
  {
    ('0' as int + d) as char
  }

  predicate IsDigit(ch: char)
  {
    '0' <= ch <= '9'
  }

  function DigitValue(ch: char): nat
    requires IsDigit(ch)
  {
    ch as int - '0' as int
  }

  /** The canonical decimal spelling of `n`, as PHP prints an integer. */
  function NatToString(n: nat): (s: string)
    ensures |s| >= 1
    ensures forall k :: 0 <= k < |s| ==> IsDigit(s[k])
    ensures s[0] == '0' ==> n == 0 && |s| == 1
  {
    if n < 10 then [DigitChar(n)] else NatToString(n / 10) + [DigitChar(n % 10)]
  }

  /** The value of a run of decimal digits. */
  function DigitsValue(s: string): nat
    requires forall k :: 0 <= k < |s| ==> IsDigit(s[k])
  {
    if |s| == 0 then 0 else DigitsValue(s[..|s| - 1]) * 10 + DigitValue(s[|s| - 1])
  }

  /** A string PHP turns into a non-negative integer array key: decimal digits,
      no leading zero except for "0" itself. */
  predicate IsCanonicalNat(s: string)
  {
    && |s| >= 1
    && (forall k :: 0 <= k < |s| ==> IsDigit(s[k]))
    && (s[0] == '0' ==> |s| == 1)
  }

  /** The integer key a string denotes when used to index a PHP array, if it
      denotes a non-negative one. */
  function ParseNat(s: string): (r: Option<nat>)
    ensures r.Some? <==> IsCanonicalNat(s)
  {
    if IsCanonicalNat(s) then Some(DigitsValue(s)) else None
  }

  /** Printing a number and reading it back as an array key gives the number. */
  lemma {:induction false} ParsePrinted(n: nat)
    ensures ParseNat(NatToString(n)) == Some(n)
  {
    DigitsOfPrinted(n);
  }

  lemma {:induction false} DigitsOfPrinted(n: nat)
    ensures DigitsValue(NatToString(n)) == n
  {
    if n >= 10 {
      var s := NatToString(n);
      assert s[..|s| - 1] == NatToString(n / 10);
      DigitsOfPrinted(n / 10);
    }
  }

  /** A string that reads as key `n` is exactly the printed form of `n`. */
  lemma {:induction false} PrintedParsed(s: string, n: nat)
    requires ParseNat(s) == Some(n)
    ensures s == NatToString(n)
    decreases |s|
  {
    if |s| == 1 {
      assert DigitsValue(s) == DigitsValue(s[..0]) * 10 + DigitValue(s[0]);
      assert s == [DigitChar(n)];
    } else {
      var init := s[..|s| - 1];
      assert IsCanonicalNat(init) by {
        assert forall k :: 0 <= k < |init| ==> init[k] == s[k];
      }
      var m := DigitsValue(init);
      assert n == m * 10 + DigitValue(s[|s| - 1]);
      assert m >= 1 by {
        LeadingDigitPositive(init);
      }
      PrintedParsed(init, m);
      assert n / 10 == m && n % 10 == DigitValue(s[|s| - 1]);
      assert s == init + [s[|s| - 1]];
    }
  }

  lemma {:induction false} LeadingDigitPositive(s: string)
    requires IsCanonicalNat(s) && s[0] != '0'
    ensures DigitsValue(s) >= 1
    decreases |s|
  {
    if |s| > 1 {
      var init := s[..|s| - 1];
      assert init[0] == s[0];
      assert IsCanonicalNat(init) by {
        assert forall k :: 0 <= k < |init| ==> init[k] == s[k];
      }
      LeadingDigitPositive(init);
    }
  }
}

=== FILE: transcript.dfy ===
/** Transcript emission: the record table sorted by timestamp (`ksort`), then written to
    the screen, to one file, or to one file per day. */
module Transcript {
  import Text
  import opened Wrappers
  import Messages

  type Record = Messages.Record

  // ---------------------------------------------------------------------------
  // ksort
  // ---------------------------------------------------------------------------

  /** Timestamps strictly increase along the sequence. */
  predicate Ascending(rs: seq<Record>)
  {
    forall i, j :: 0 <= i < j < |rs| ==> rs[i].ts < rs[j].ts
  }

  lemma KeysCons(x: Record, rs: seq<Record>)
    ensures Messages.Keys([x] + rs) == {x.ts} + Messages.Keys(rs)
  {
    assert ([x] + rs)[1..] == rs;
  }

  lemma {:induction false} KeysMember(rs: seq<Record>, i: nat)
    requires i < |rs|
    ensures rs[i].ts in Messages.Keys(rs)
  {
    if i > 0 {
      KeysMember(rs[1..], i - 1);
    }
  }

  /** Insertion of one record into a sorted run. */
  function Insert(x: Record, rs: seq<Record>): (r: seq<Record>)
    ensures |r| == |rs| + 1
    ensures multiset(r) == multiset(rs) + multiset{x}
    ensures forall i :: 0 <= i < |r| ==> r[i] == x || r[i] in rs
  {
    if |rs| == 0 then [x]
    else if x.ts < rs[0].ts then [x] + rs
    else
      assert rs == [rs[0]] + rs[1..];
      var tail := Insert(x, rs[1..]);
      assert forall i :: 1 <= i < |tail| + 1 ==> ([rs[0]] + tail)[i] == tail[i - 1];
      [rs[0]] + tail
  }

  lemma {:induction false} InsertKeys(x: Record, rs: seq<Record>)
    ensures Messages.Keys(Insert(x, rs)) == Messages.Keys(rs) + {x.ts}
  {
    if |rs| > 0 {
      assert rs == [rs[0]] + rs[1..];
      KeysCons(rs[0], rs[1..]);
      if x.ts < rs[0].ts {
        KeysCons(x, rs);
      } else {
        var tail := Insert(x, rs[1..]);
        assert Insert(x, rs) == [rs[0]] + tail;
        InsertKeys(x, rs[1..]);
        KeysCons(rs[0], tail);
        assert Messages.Keys(tail) == Messages.Keys(rs[1..]) + {x.ts};
      }
    }
  }

  /** Every timestamp of a run exceeds `b`, so `b` is not a key of it. */
  lemma {:induction false} KeysAbove(rs: seq<Record>, b: int)
    requires forall i :: 0 <= i < |rs| ==> b < rs[i].ts
    ensures b !in Messages.Keys(rs)
  {
    if |rs| > 0 {
      assert forall i :: 0 <= i < |rs[1..]| ==> rs[1..][i] == rs[i + 1];
      KeysAbove(rs[1..], b);
    }
  }

  lemma {:induction false} InsertAscending(x: Record, rs: seq<Record>)
    requires Ascending(rs) && x.ts !in Messages.Keys(rs)
    ensures Ascending(Insert(x, rs))
  {
    if |rs| > 0 && x.ts >= rs[0].ts {
      assert rs == [rs[0]] + rs[1..];
      KeysCons(rs[0], rs[1..]);
      InsertAscending(x, rs[1..]);
      var tail := Insert(x, rs[1..]);
      forall i | 0 <= i < |tail|
        ensures rs[0].ts < tail[i].ts
      {
        if tail[i] != x {
          var j :| 0 <= j < |rs[1..]| && rs[1..][j] == tail[i];
          assert rs[j + 1] == tail[i];
        }
      }
      var r := [rs[0]] + tail;
      assert forall i :: 1 <= i < |r| ==> r[i] == tail[i - 1];
    }
  }

  /** `ksort`: the same records, by ascending timestamp. */
  function Sort(rs: seq<Record>): (r: seq<Record>)
    ensures multiset(r) == multiset(rs)
    ensures Messages.Keys(r) == Messages.Keys(rs)
    ensures Messages.UniqueKeys(rs) ==> Ascending(r)
  {
    if |rs| == 0 then []
    else
      assert rs == [rs[0]] + rs[1..];
      KeysCons(rs[0], rs[1..]);
      var tail := Sort(rs[1..]);
      InsertKeys(rs[0], tail);
      if Messages.UniqueKeys(rs) then
        InsertAscending(rs[0], tail);
        Insert(rs[0], tail)
      else Insert(rs[0], tail)
  }

  lemma {:induction false} AscendingUnique(rs: seq<Record>)
    requires Ascending(rs)
    ensures Messages.UniqueKeys(rs)
  {
    if |rs| > 0 {
      assert forall i :: 0 <= i < |rs[1..]| ==> rs[1..][i] == rs[i + 1];
      AscendingUnique(rs[1..]);
      KeysAbove(rs[1..], rs[0].ts);
    }
  }

  /** In a table without repeated keys, the line under `ts` is the one of the record
      with that timestamp. */
  lemma {:induction false} LookupMember(rs: seq<Record>, ts: int, line: string)
    requires Messages.UniqueKeys(rs)
    ensures Messages.Lookup(rs, ts) == Some(line) <==> Messages.Record(ts, line) in rs
  {
    if |rs| > 0 {
      LookupMember(rs[1..], ts, line);
      assert rs == [rs[0]] + rs[1..];
      if rs[0].ts == ts && Messages.Record(ts, line) in rs[1..] {
        var j :| 0 <= j < |rs[1..]| && rs[1..][j] == Messages.Record(ts, line);
        KeysMember(rs[1..], j);
      }
    }
  }

  /** Sorting a table with distinct keys orders it and keeps every entry: the sorted table
      looks up the same line under every timestamp. */
  lemma KsortKeepsTable(rs: seq<Record>, ts: int)
    requires Messages.UniqueKeys(rs)
    ensures Ascending(Sort(rs))
    ensures Messages.Lookup(Sort(rs), ts) == Messages.Lookup(rs, ts)
  {
    var s := Sort(rs);
    AscendingUnique(s);
    Messages.LookupKeys(rs, ts);
    Messages.LookupKeys(s, ts);
    if Messages.Lookup(rs, ts).Some? {
      var line := Messages.Lookup(rs, ts).value;
      LookupMember(rs, ts, line);
      assert Messages.Record(ts, line) in multiset(rs);
      LookupMember(s, ts, line);
    }
  }

  /** The lines of a run of records, in order. */
  function Lines(rs: seq<Record>): (ls: seq<string>)
    ensures |ls| == |rs|
    ensures forall i :: 0 <= i < |rs| ==> ls[i] == rs[i].line
  {
    if |rs| == 0 then [] else [rs[0].line] + Lines(rs[1..])
  }

  // ---------------------------------------------------------------------------
  // File names for split output
  // ---------------------------------------------------------------------------

  /** The pieces of the file name: `join` of the dot-separated pieces without the last
      one, and the last piece with its dot (both only when the name has a dot). */
  datatype FileName = FileName(base: string, ext: string)

  function SplitName(file: string): FileName
  {
    var pieces := Text.Explode('.', file);
    if |pieces| > 1 then FileName(Text.Join("", pieces[..|pieces| - 1]), "." + pieces[|pieces| - 1])
    else FileName(Text.Join("", pieces), "")
  }

  lemma {:induction false} JoinSnoc(sep: string, init: seq<string>, x: string)
    requires |init| >= 1
    ensures Text.Join(sep, init + [x]) == Text.Join(sep, init) + sep + x
    decreases |init|
  {
    var w := init + [x];
    assert w[1..] == init[1..] + [x];
    if |init| == 1 {
      assert w == [init[0], x];
      assert [x][1..] == [];
      assert Text.Join(sep, [x]) == x;
      assert Text.JoinTail(sep, [x]) == sep + x;
      assert Text.Join(sep, init) == init[0];
    } else {
      JoinSnoc(sep, init[1..], x);
    }
  }

  /** Joining dot-free pieces with no glue is joining them with dots and deleting the dots. */
  lemma {:induction false} RemoveJoin(c: char, parts: seq<string>)
    requires forall k :: 0 <= k < |parts| ==> c !in parts[k]
    ensures Text.Remove(c, Text.Join([c], parts)) == Text.Join("", parts)
    decreases |parts|
  {
    if |parts| > 0 {
      var t := parts[1..];
      Text.RemoveAbsent(c, parts[0]);
      Text.RemoveAppend(c, parts[0], Text.JoinTail([c], t));
      if |t| > 0 {
        RemoveJoin(c, t);
        Text.RemoveAppend(c, [c], Text.Join([c], t));
        assert Text.Remove(c, [c]) == "";
      }
    }
  }

  /** `explode` yields one piece exactly for a string without the separator. */
  lemma ExplodeSingle(file: string)
    ensures |Text.Explode('.', file)| == 1 <==> '.' !in file
    ensures '.' !in file ==> Text.Explode('.', file) == [file]
  {
    var a := Text.Explode('.', file);
    Text.JoinExplode('.', file);
    if |a| == 1 {
      assert a == [a[0]];
      assert Text.Join(".", a) == a[0];
    } else {
      DotBetween(a);
    }
  }

  /** With two or more pieces, the dot-joined string is the joined init, a dot, and the
      last piece. */
  lemma DotBetween(a: seq<string>)
    requires |a| > 1
    ensures var p := Text.Join(".", a[..|a| - 1]);
      var q := a[|a| - 1];
      Text.Join(".", a) == p + "." + q && '.' in Text.Join(".", a)
  {
    var init := a[..|a| - 1];
    var q := a[|a| - 1];
    assert a == init + [q];
    JoinSnoc(".", init, q);
    var p := Text.Join(".", init);
    assert (p + "." + q)[|p|] == '.';
  }

  /** A name without a dot is kept whole with no extension; otherwise the extension is the
      name from its last dot on, and the base is everything before that dot with every
      other dot deleted. */
  lemma SplitNameMeaning(file: string)
    ensures '.' !in file ==> SplitName(file) == FileName(file, "")
    ensures '.' in file ==> exists i :: (0 <= i < |file| && file[i] == '.' && '.' !in file[i + 1..]
      && SplitName(file) == FileName(Text.Remove('.', file[..i]), file[i..]))
  {
    ExplodeSingle(file);
    if '.' !in file {
      var a := Text.Explode('.', file);
      assert Text.Join("", a) == file;
    } else {
      var a := Text.Explode('.', file);
      Text.JoinExplode('.', file);
      assert ['.'] == ".";
      DotBetween(a);
      var init := a[..|a| - 1];
      var q := a[|a| - 1];
      var p := Text.Join(".", init);
      var i := |p|;
      Pieces(p, q, file);
      RemoveJoin('.', init);
      assert SplitName(file) == FileName(Text.Remove('.', file[..i]), file[i..]);
    }
  }

  lemma Pieces(p: string, q: string, file: string)
    requires file == p + "." + q
    ensures file[..|p|] == p && file[|p|] == '.' && file[|p| + 1..] == q && file[|p|..] == "." + q
  {
  }

  /** Dots inside the base name disappear. */
  lemma SplitNameInnerDots()
    ensures SplitName("a.b.txt") == FileName("ab", ".txt")
  {
    var pieces := ["a", "b", "txt"];
    Text.ExplodeWord('.', "txt");
    Text.ExplodeSep('.', "txt", ".txt");
    Text.ExplodeChar('.', 'b', ".txt", "", ["txt"], "b.txt", "b");
    Text.ExplodeSep('.', "b.txt", ".b.txt");
    Text.ExplodeChar('.', 'a', ".b.txt", "", ["b", "txt"], "a.b.txt", "a");
    assert Text.Explode('.', "a.b.txt") == pieces;
    assert pieces[..2] == ["a", "b"];
    assert Text.Join("", ["a", "b"]) == "ab";
  }

  lemma SplitNamePlain()
    ensures SplitName("out.txt") == FileName("out", ".txt")
  {
    Text.ExplodeWord('.', "txt");
    Text.ExplodeSep('.', "txt", ".txt");
    Text.ExplodeChar('.', 't', ".txt", "", ["txt"], "t.txt", "t");
    Text.ExplodeChar('.', 'u', "t.txt", "t", ["txt"], "ut.txt", "ut");
    Text.ExplodeChar('.', 'o', "ut.txt", "ut", ["txt"], "out.txt", "out");
    assert Text.Explode('.', "out.txt") == ["out", "txt"];
    assert ["out", "txt"][..1] == ["out"];
    assert Text.Join("", ["out"]) == "out";
  }

  lemma SplitNameNoDot()
    ensures SplitName("log") == FileName("log", "")
  {
    Text.ExplodeWord('.', "log");
  }

  // ---------------------------------------------------------------------------
  // Grouping by day
  // ---------------------------------------------------------------------------

  /** The records of one day, in table order. */
  datatype Group = Group(day: nat, records: seq<Record>)

  predicate HasDay(gs: seq<Group>, d: nat)
  {
    exists k :: 0 <= k < |gs| && gs[k].day == d
  }

  predicate DistinctDays(gs: seq<Group>)
  {
    forall i, j :: 0 <= i < j < |gs| ==> gs[i].day != gs[j].day
  }

  /** A day occurs in a non-empty run of groups exactly when it is the first group's day
      or occurs in the rest. */
  lemma HasDayCons(gs: seq<Group>, d: nat)
    requires |gs| > 0
    ensures HasDay(gs, d) <==> gs[0].day == d || HasDay(gs[1..], d)
    ensures DistinctDays(gs) ==> DistinctDays(gs[1..])
  {
    if HasDay(gs, d) && gs[0].day != d {
      var k :| 0 <= k < |gs| && gs[k].day == d;
      assert gs[1..][k - 1] == gs[k];
    }
    if HasDay(gs[1..], d) {
      var k :| 0 <= k < |gs[1..]| && gs[1..][k].day == d;
      assert gs[k + 1] == gs[1..][k];
    }
  }

  /** `$m[$day][] = $line`: append to the day's group, opening it at the end when new. */
  function AddTo(gs: seq<Group>, d: nat, r: Record): seq<Group>
  {
    if |gs| == 0 then [Group(d, [r])]
    else if gs[0].day == d then [Group(d, gs[0].records + [r])] + gs[1..]
    else [gs[0]] + AddTo(gs[1..], d, r)
  }

  /** Appending keeps every group's day in place; a known day grows its own group, and
      only that one when days are distinct; a new day opens a group at the end. */
  lemma {:induction false} AddToMeaning(gs: seq<Group>, d: nat, r: Record)
    ensures var out := AddTo(gs, d, r);
      && (HasDay(gs, d) ==> |out| == |gs|)
      && (!HasDay(gs, d) ==> out == gs + [Group(d, [r])])
      && (forall k :: 0 <= k < |gs| ==> out[k].day == gs[k].day)
      && (DistinctDays(gs) ==> forall k :: 0 <= k < |gs| ==>
            out[k].records == gs[k].records + (if gs[k].day == d then [r] else []))
    decreases |gs|
  {
    if |gs| > 0 && gs[0].day != d {
      var tail := AddTo(gs[1..], d, r);
      AddToMeaning(gs[1..], d, r);
      HasDayCons(gs, d);
      var out := AddTo(gs, d, r);
      assert out == [gs[0]] + tail;
      forall k | 1 <= k < |gs|
        ensures out[k] == tail[k - 1] && gs[k] == gs[1..][k - 1]
      {
      }
      if !HasDay(gs, d) {
        assert gs + [Group(d, [r])] == [gs[0]] + (gs[1..] + [Group(d, [r])]);
      }
    } else if |gs| > 0 {
      assert HasDay(gs, d) by { assert gs[0].day == d; }
    }
  }

  function DayOf(ctx: Messages.Context, r: Record): nat
  {
    Messages.DayOf(ctx, r.ts)
  }

  /** The grouping loop over the sorted table. */
  function Groups(ctx: Messages.Context, rs: seq<Record>): seq<Group>
  {
    if |rs| == 0 then [] else AddTo(Groups(ctx, rs[..|rs| - 1]), DayOf(ctx, rs[|rs| - 1]), rs[|rs| - 1])
  }

  /** The records of day `d`, in order: the reference meaning of a group. */
  function OfDay(ctx: Messages.Context, rs: seq<Record>, d: nat): (r: seq<Record>)
    ensures forall i :: 0 <= i < |r| ==> r[i] in rs && DayOf(ctx, r[i]) == d
  {
    if |rs| == 0 then []
    else OfDay(ctx, rs[..|rs| - 1], d) + (if DayOf(ctx, rs[|rs| - 1]) == d then [rs[|rs| - 1]] else [])
  }

  lemma {:induction false} OfDayEmpty(ctx: Messages.Context, rs: seq<Record>, d: nat)
    requires forall i :: 0 <= i < |rs| ==> DayOf(ctx, rs[i]) != d
    ensures OfDay(ctx, rs, d) == []
    decreases |rs|
  {
    if |rs| > 0 {
      OfDayEmpty(ctx, rs[..|rs| - 1], d);
    }
  }

  lemma GroupsSnoc(ctx: Messages.Context, rs: seq<Record>)
    requires |rs| > 0
    ensures var init := rs[..|rs| - 1];
      var last := rs[|rs| - 1];
      && rs == init + [last]
      && Groups(ctx, rs) == AddTo(Groups(ctx, init), DayOf(ctx, last), last)
      && OfDay(ctx, rs, DayOf(ctx, last)) == OfDay(ctx, init, DayOf(ctx, last)) + [last]
  {
    assert rs == rs[..|rs| - 1] + [rs[|rs| - 1]];
  }

  /** Each day that occurs has a group, and only those days. */
  lemma {:induction false} GroupDays(ctx: Messages.Context, rs: seq<Record>, d: nat)
    ensures HasDay(Groups(ctx, rs), d) <==> exists i :: 0 <= i < |rs| && DayOf(ctx, rs[i]) == d
    decreases |rs|
  {
    if |rs| > 0 {
      var init := rs[..|rs| - 1];
      var last := rs[|rs| - 1];
      var dl := DayOf(ctx, last);
      GroupsSnoc(ctx, rs);
      GroupDays(ctx, init, d);
      var old_ := Groups(ctx, init);
      AddToMeaning(old_, dl, last);
      var gs := Groups(ctx, rs);
      assert forall i :: 0 <= i < |init| ==> init[i] == rs[i];
      if HasDay(old_, d) {
        var k :| 0 <= k < |old_| && old_[k].day == d;
        assert gs[k].day == d;
      } else if d == dl {
        assert DayOf(ctx, rs[|rs| - 1]) == d;
        assert gs[|old_|].day == d;
      } else {
        forall i | 0 <= i < |rs|
          ensures DayOf(ctx, rs[i]) != d
        {
          if i < |init| {
            assert rs[i] == init[i];
          }
        }
      }
    }
  }

  /** Each day has one group, holding exactly that day's records in table order. */
  lemma {:induction false} GroupRecords(ctx: Messages.Context, rs: seq<Record>)
    ensures var gs := Groups(ctx, rs);
      && DistinctDays(gs)
      && (forall k :: 0 <= k < |gs| ==> gs[k].records == OfDay(ctx, rs, gs[k].day))
    decreases |rs|
  {
    if |rs| > 0 {
      var init := rs[..|rs| - 1];
      var last := rs[|rs| - 1];
      var dl := DayOf(ctx, last);
      GroupsSnoc(ctx, rs);
      GroupRecords(ctx, init);
      var old_ := Groups(ctx, init);
      AddToMeaning(old_, dl, last);
      var gs := Groups(ctx, rs);
      if !HasDay(old_, dl) {
        GroupDays(ctx, init, dl);
        OfDayEmpty(ctx, init, dl);
        forall i, j | 0 <= i < j < |gs|
          ensures gs[i].day != gs[j].day
        {
          if j == |old_| {
            assert old_[i].day == gs[i].day;
          }
        }
      } else {
        forall i, j | 0 <= i < j < |gs|
          ensures gs[i].day != gs[j].day
        {
          assert gs[i].day == old_[i].day && gs[j].day == old_[j].day;
        }
      }
      forall k | 0 <= k < |old_|
        ensures gs[k].records == OfDay(ctx, rs, gs[k].day)
      {
        assert gs[k].records == old_[k].records + (if old_[k].day == dl then [last] else []);
      }
    }
  }

  /** The groups are the days that occur, each once, holding exactly that day's records
      in table order. */
  lemma GroupsMeaning(ctx: Messages.Context, rs: seq<Record>)
    ensures var gs := Groups(ctx, rs);
      && DistinctDays(gs)
      && (forall i :: 0 <= i < |rs| ==> HasDay(gs, DayOf(ctx, rs[i])))
      && (forall k :: 0 <= k < |gs| ==> gs[k].records == OfDay(ctx, rs, gs[k].day) && |gs[k].records| > 0)
  {
    var gs := Groups(ctx, rs);
    GroupRecords(ctx, rs);
    forall i | 0 <= i < |rs|
      ensures HasDay(gs, DayOf(ctx, rs[i]))
    {
      GroupDays(ctx, rs, DayOf(ctx, rs[i]));
    }
    forall k | 0 <= k < |gs|
      ensures |gs[k].records| > 0
    {
      assert HasDay(gs, gs[k].day);
      GroupDays(ctx, rs, gs[k].day);
      var i :| 0 <= i < |rs| && DayOf(ctx, rs[i]) == gs[k].day;
      OfDayHas(ctx, rs, i);
    }
  }

  /** Every record lands in exactly one group, the one of its day. */
  lemma EachRecordInOneGroup(ctx: Messages.Context, rs: seq<Record>, i: nat)
    requires i < |rs|
    ensures var gs := Groups(ctx, rs);
      exists k :: (0 <= k < |gs| && gs[k].day == DayOf(ctx, rs[i]) && rs[i] in gs[k].records
        && forall k' :: 0 <= k' < |gs| && k' != k ==> rs[i] !in gs[k'].records)
  {
    var gs := Groups(ctx, rs);
    GroupsMeaning(ctx, rs);
    var d := DayOf(ctx, rs[i]);
    assert HasDay(gs, d);
    var k :| 0 <= k < |gs| && gs[k].day == d;
    OfDayHas(ctx, rs, i);
    forall k' | 0 <= k' < |gs| && k' != k
      ensures rs[i] !in gs[k'].records
    {
    }
  }

  lemma {:induction false} OfDayHas(ctx: Messages.Context, rs: seq<Record>, i: nat)
    requires i < |rs|
    ensures rs[i] in OfDay(ctx, rs, DayOf(ctx, rs[i]))
    decreases |rs|
  {
    if i < |rs| - 1 {
      OfDayHas(ctx, rs[..|rs| - 1], i);
    }
  }

  /** A day's records keep the table's ascending order. */
  lemma {:induction false} OfDayAscending(ctx: Messages.Context, rs: seq<Record>, d: nat)
    requires Ascending(rs)
    ensures Ascending(OfDay(ctx, rs, d))
    decreases |rs|
  {
    if |rs| > 0 {
      var init := rs[..|rs| - 1];
      var last := rs[|rs| - 1];
      assert Ascending(init);
      OfDayAscending(ctx, init, d);
      var f := OfDay(ctx, init, d);
      forall i | 0 <= i < |f|
        ensures f[i].ts < last.ts
      {
        var j :| 0 <= j < |init| && init[j] == f[i];
        assert rs[j] == init[j];
      }
    }
  }

  // ---------------------------------------------------------------------------
  // Output
  // ---------------------------------------------------------------------------

  datatype File = File(name: string, content: string)

  /** Where the transcript goes. */
  datatype Output = Screen(text: string) | Files(files: seq<File>)

  /** The name of the file for one day. */
  function DayFileName(name: FileName, day: nat): string
  {
    name.base + "-" + Text.NatToString(day) + name.ext
  }

  function DayFiles(name: FileName, gs: seq<Group>): (fs: seq<File>)
    ensures |fs| == |gs|
    ensures forall k :: 0 <= k < |gs| ==>
      fs[k] == File(DayFileName(name, gs[k].day), Text.Join("\n", Lines(gs[k].records)) + "\n")
  {
    if |gs| == 0 then []
    else [File(DayFileName(name, gs[0].day), Text.Join("\n", Lines(gs[0].records)) + "\n")] + DayFiles(name, gs[1..])
  }

  /** The emission step; `file` is "" when no output file was given. */
  function Emit(ctx: Messages.Context, records: seq<Record>, file: string, split: bool): (o: Output)
    ensures o.Screen? <==> file == ""
    ensures file != "" && !split ==> |o.files| == 1 && o.files[0].name == file
    ensures file != "" && split ==> forall k :: 0 <= k < |o.files| ==>
      exists d :: o.files[k].name == DayFileName(SplitName(file), d)
  {
    var sorted := Sort(records);
    if file == "" then Screen(Text.Join("\n", Lines(sorted)) + "\n\n")
    else if !split then Files([File(file, Text.Join("\n", Lines(sorted)) + "\n")])
    else Files(DayFiles(SplitName(file), Groups(ctx, sorted)))
  }

  /** Without split mode the whole table goes out at once, in ascending timestamp order:
      to the screen followed by a blank line, or to the named file. */
  lemma EmitWhole(ctx: Messages.Context, records: seq<Record>, file: string, split: bool)
    requires Messages.UniqueKeys(records)
    requires file == "" || !split
    ensures var sorted := Sort(records);
      && Ascending(sorted) && multiset(sorted) == multiset(records)
      && Emit(ctx, records, file, split) ==
         if file == "" then Screen(Text.Join("\n", Lines(sorted)) + "\n\n")
         else Files([File(file, Text.Join("\n", Lines(sorted)) + "\n")])
  {
  }

  /** In split mode every record's day has a file. */
  lemma SplitCoversRecords(ctx: Messages.Context, records: seq<Record>, i: nat)
    requires i < |records|
    ensures HasDay(Groups(ctx, Sort(records)), DayOf(ctx, records[i]))
  {
    var sorted := Sort(records);
    GroupsMeaning(ctx, sorted);
    assert records[i] in multiset(sorted);
    var j :| 0 <= j < |sorted| && sorted[j] == records[i];
  }

  /** In split mode there is one file per day group, named base-"-"-day-extension, holding
      exactly that day's records in ascending timestamp order; no two share a name. */
  lemma EmitSplit(ctx: Messages.Context, records: seq<Record>, file: string)
    requires Messages.UniqueKeys(records)
    requires file != ""
    ensures var gs := Groups(ctx, Sort(records));
      var fs := Emit(ctx, records, file, true).files;
      && |fs| == |gs|
      && (forall k :: 0 <= k < |gs| ==>
            && fs[k].name == DayFileName(SplitName(file), gs[k].day)
            && fs[k].content == Text.Join("\n", Lines(OfDay(ctx, Sort(records), gs[k].day))) + "\n"
            && Ascending(gs[k].records))
      && (forall i, j :: 0 <= i < j < |fs| ==> fs[i].name != fs[j].name)
  {
    var sorted := Sort(records);
    var gs := Groups(ctx, sorted);
    var fs := Emit(ctx, records, file, true).files;
    GroupRecords(ctx, sorted);
    forall k | 0 <= k < |gs|
      ensures Ascending(gs[k].records)
    {
      OfDayAscending(ctx, sorted, gs[k].day);
    }
    forall i, j | 0 <= i < j < |fs|
      ensures fs[i].name != fs[j].name
    {
      DayNamesInjective(SplitName(file), gs[i].day, gs[j].day);
    }
  }

  lemma Middle(p: string, x: string, y: string, e: string)
    requires p + x + e == p + y + e
    ensures x == y
  {
    var s := p + x + e;
    assert |x| == |y|;
    assert s[|p|..|p| + |x|] == x;
    assert (p + y + e)[|p|..|p| + |y|] == y;
  }

  /** Different days give different file names. */
  lemma DayNamesInjective(name: FileName, a: nat, b: nat)
    ensures DayFileName(name, a) == DayFileName(name, b) ==> a == b
  {
    if DayFileName(name, a) == DayFileName(name, b) {
      Middle(name.base + "-", Text.NatToString(a), Text.NatToString(b), name.ext);
      Text.ParsePrinted(a);
      Text.ParsePrinted(b);
    }
  }
}

=== FILE: wrappers.dfy ===
/** Option and Result, the failure-carrying values used throughout the model. */
module Wrappers {

  /** A value that may be absent: a missing JSON field, a failed parse, an unset option. */
  datatype Option<+T> = None | Some(value: T) {

    /** The wrapped value, or `default` when absent (PHP's `??` operator). */
    function GetOr(default: T): T {
      match this
      case Some(v) => v
      case None => default
    }
  }

  /** The outcome of an operation that either succeeds with a value or fails with an error. */
  datatype Result<+R, +E> = Success(value: R) | Failure(error: E)
}
